=== FILE: README.md ===
# Samsung multi-tools: the decision logic, in Dafny

This project models the deterministic core of a small React application that
offers Samsung phone owners seven tools. The tools are a trade-in estimator, a
battery health checker, an upgrade advisor, a phone comparison, a firmware
compatibility checker, a One UI customization generator and an update
tracker. What is modelled:

- the six scoring services behind the tools, as pure functions over their constant tables;
- the phone and update lookup services, over seed lists passed as parameters;
- the filter pipelines of the update tracker and the home page, and the
  header's active-link test;
- the form-state handlers of each tool page: field change, multi-select
  toggle, required-field guard, submit, reset, and the score and risk badges.

Modules follow the source files:

- `Wrappers` (Option, Result), `Text` (the JavaScript string operations the code uses)
  and `Seqs` (`filter`, `findIndex`, a stable sort largest first) are the shared base.
- `TradeIn`, `Battery`, `Upgrade`, `Comparison`, `Firmware`, `Customization`,
  `Phones` and `Updates` are the services.
- `UpdateTracker`, `Home` and `Header` are the filter and matching logic.
- `Forms` holds the page record shared by all tool pages: the form, the last
  result and the error text. `TradeInPage`, `BatteryPage`, `FirmwarePage`,
  `ComparisonPage`, `UpgradePage` and `CustomizationPage` are the pages' handlers.

How JavaScript semantics are modelled:

- `parseInt` is `Text.ParseInt`, with `None` standing for `NaN`. It skips leading
  white space, takes a sign and a `0x` prefix, then the longest digit prefix.
  Every comparison with `NaN` is false, and the model follows that:
  - a battery score that is `NaN` is rated Poor;
  - a battery capacity that does not parse makes that category a tie;
  - an upgrade option whose price does not parse is never penalised.
- A string pattern given to `replace` replaces the FIRST match only
  (`Text.ReplaceFirst`). `/\b\w/g` upper-casing is `Text.CapitalizeWords`.
- Decimal multipliers are integer tenths. The trade-in product
  `base × condition × storage` is therefore an exact number of cents, and
  `Math.round` is `(cents + 50) / 100`. This is exact because the cents are
  never half-way (`TradeIn.NeverHalfWay`).
- Battery usage multipliers × 10 are the integer penalties 5/10/15/20.
- Release dates are integer sort keys.

Behaviour of the code that a reader might not expect, kept as written:

- A valid budget never receives the upgrade promotions tip. That tip fires
  only for the budget `'immediate'`, which is not a budget key.
- The budget label keeps a dash. The three `replace` calls run in order, so
  "under-500" reads "Under $ - $500".
- When four battery rules fire, the generic battery tips are crowded out of the
  cut to four.
- A trade-in submission with blank fields shows the full-page error screen when
  there is no earlier result, not an inline message.
- The header's prefix test has no path-segment boundary: "/update-trackerX"
  highlights the Updates link.
- The customization page's field handler does not clear the error, unlike the
  other pages.
- The customization page's error starts as `null`; it is modelled as "".

## Model

| member | source | states |
|---|---|---|
| `TradeIn.EstimatedValue` | src/services/api/tradeInService.js:61-65 | the estimate is the whole-dollar amount within half a dollar of base × condition × storage, with fallbacks 300 / 0.8 / 1.0 for keys not in the tables |
| `TradeIn.NeverHalfWay` | src/services/api/tradeInService.js:5-33 | every tabled or default product is an exact number of cents that is never x.50, so the rounding never meets a tie |
| `TradeIn.EstimateBounds` | src/services/api/tradeInService.js:5-33 | every estimate, for any model, condition and storage text, lies in [65, 1170] |
| `TradeIn.ConditionStep` | src/services/api/tradeInService.js:20-25 | a condition with a larger multiplier never gives a lower estimate |
| `TradeIn.ConditionMonotone` | src/services/api/tradeInService.js:20-25 | excellent ≥ good ≥ fair ≥ poor for every model and storage |
| `TradeIn.StorageStep` | src/services/api/tradeInService.js:27-33 | a storage tier with a larger multiplier never gives a lower estimate |
| `TradeIn.StorageMonotone` | src/services/api/tradeInService.js:27-33 | 64GB ≤ 128GB ≤ 256GB ≤ 512GB ≤ 1TB for every model and condition |
| `TradeIn.Tips` | src/services/api/tradeInService.js:35-54 | exactly four tips: the private-sale tip first for excellent, the protection tip first for poor, neither for other conditions; the high-storage tip is present iff the storage is 512GB or 1TB |
| `TradeIn.GetEstimate` | src/services/api/tradeInService.js:57-77 | the estimate echoes the inputs, is the rounded value of the product, lies in [65, 1170] and carries the tips for its condition and storage |
| `TradeIn.ExampleGalaxyS24Good128` | src/services/api/tradeInService.js:8-65 | ("Galaxy S24", "good", "128GB") is estimated at 440 |
| `Battery.AgePenalty` | src/services/api/batteryService.js:8 | two points a month, capped at 40 from twenty months on |
| `Battery.HealthScore` | src/services/api/batteryService.js:3-37 | the score is a number iff the age parses, and then lies in [20, 100] |
| `Battery.ScoreAntitoneInAge` | src/services/api/batteryService.js:8 | with the other inputs fixed, an older phone never scores higher |
| `Battery.AgeCapped` | src/services/api/batteryService.js:8 | every age of 20 months or more scores like 20 months |
| `Battery.UnknownKeysFallback` | src/services/api/batteryService.js:17-34 | usage, charging and heat values missing from the tables cost 10, 5 and 5 points |
| `Battery.HealthStatus` | src/services/api/batteryService.js:39-44 | Excellent iff ≥ 80, Good iff in [60, 80), Fair iff in [40, 60), Poor otherwise and for `NaN` |
| `Battery.Recommendations` | src/services/api/batteryService.js:46-74 | three or four tips; the replacement, overnight, depleted, heat and gaming advice each present iff its rule fires, the replacement advice then first; with no rule firing the result is the three generic tips |
| `Battery.ConditionalTipsMembers` | src/services/api/batteryService.js:49-67 | each piece of advice is selected exactly when its rule fires |
| `Battery.CutKeepsAdvice` | src/services/api/batteryService.js:69-74 | at most four pieces of advice fire, so the cut to four keeps every one of them |
| `Battery.CheckHealth` | src/services/api/batteryService.js:77-97 | the record echoes model, usage, charging and heat, and carries the parsed age, the score for it, the status of that score and the recommendations for it |
| `Battery.ExampleWorstCase` | src/services/api/batteryService.js:8-44 | 24 months, gaming, depleted, high heat scores 100 − 40 − 20 − 8 − 12 = 20, which is Poor |
| `Upgrade.RescoredCandidates` | src/services/api/upgradeService.js:54-83 | every re-scored option is a phone other than the current one, with a score in [0, 100] |
| `Upgrade.CandidatesMembers` | src/services/api/upgradeService.js:55 | the candidates are exactly the options whose model is not the current phone |
| `Upgrade.CandidatesCount` | src/services/api/upgradeService.js:54-55 | four candidates when the current phone is one of the five options, five otherwise |
| `Upgrade.Rescore` | src/services/api/upgradeService.js:56-82 | re-scoring keeps every field of the option except the score, which becomes the raw score clamped to [0, 100] (0 below, 100 above) |
| `Upgrade.ClampScore` | src/services/api/upgradeService.js:80 | the score is kept inside [0, 100], raised to 0 below and lowered to 100 above |
| `Upgrade.Alternatives` | src/services/api/upgradeService.js:131-134 | one alternative per option, in order, with reason "Strong alternative with " and the option's strengths joined by ", " |
| `Upgrade.CalculateScores` | src/services/api/upgradeService.js:43-75 | the scoring succeeds iff the budget is one of the five bracket keys; a missing key is the TypeError of reading `range.min` |
| `Upgrade.CalculateScoresSpec` | src/services/api/upgradeService.js:54-84 | the scored list is a permutation of the re-scored candidates, sorted by non-increasing score, with options of equal score in table order; it leaves out the current phone and is 4 or 5 long |
| `Upgrade.BudgetBoundsInclusive` | src/services/api/upgradeService.js:44-75 | both bracket bounds are inclusive: a price of 800 is penalised by neither "500-800" nor "800-1200" |
| `Upgrade.MorePrioritiesNeverLower` | src/services/api/upgradeService.js:58-77 | selecting more priorities never lowers an option's raw score |
| `Upgrade.PriorityBonus` | src/services/api/upgradeService.js:60-71 | selecting one more priority adds exactly its table bonus: 5 for camera on an Ultra, 8 for price under 800, 3 for performance on a 2024 phone, 4 for battery on a Plus, nothing otherwise |
| `Upgrade.BudgetPenalty` | src/services/api/upgradeService.js:73-77 | an option priced outside the budget bracket scores exactly 15 less than against a bracket that contains its price |
| `Upgrade.Tips` | src/services/api/upgradeService.js:87-107 | three or four tips; the promotions tip iff the budget is "immediate"; the camera tip iff camera is a priority, and then first; the trade-in tip iff price is a priority |
| `Upgrade.NoPromotionsForBudgetKeys` | src/services/api/upgradeService.js:98-100 | no budget key yields the promotions tip |
| `Upgrade.PriorityLabels` | src/services/api/upgradeService.js:124 | one label per priority, in order, each with its first letter upper-cased |
| `Upgrade.BudgetLabelUnder` | src/services/api/upgradeService.js:125 | "under-N" reads "Under $ - $N" for every digit string N |
| `Upgrade.BudgetLabelOver` | src/services/api/upgradeService.js:125 | "over-N" reads "Over $ - $N" |
| `Upgrade.BudgetLabelBetween` | src/services/api/upgradeService.js:125 | "A-B" reads "A - $B" for digit strings A and B |
| `Upgrade.TimeframeLabelSpaced` | src/services/api/upgradeService.js:126 | the first dash of a timeframe becomes a space |
| `Upgrade.GetAdvice` | src/services/api/upgradeService.js:110-138 | advice is produced iff the budget is a bracket key, else the missing-bracket error; it echoes the current phone, gives the top pick the reason "Best match for your <priorities joined by ', '> priorities", and carries the priority, budget and timeframe labels and the tips for its inputs |
| `Upgrade.GetAdviceTop` | src/services/api/upgradeService.js:84-116 | the top recommendation is a scored option, not the current phone, scores at least as high as every scored option, and is the first candidate in table order with that score |
| `Upgrade.GetAdviceAlternatives` | src/services/api/upgradeService.js:117-134 | exactly three alternatives: the second, third and fourth scored options in ranking order, none of them the current phone |
| `Upgrade.AlternativesOf` | src/services/api/upgradeService.js:117 | the alternatives are the second, third and fourth options of the ranking, in order |
| `Upgrade.GetAdviceTips` | src/services/api/upgradeService.js:98-119 | the advice for a valid budget never carries the promotions tip |
| `Comparison.Compare3` | src/services/api/comparisonService.js:11-12 | model1 iff the first key is greater, model2 iff smaller, tie iff equal |
| `Comparison.CompareParsed` | src/services/api/comparisonService.js:35-36 | a battery text that does not parse makes the category a tie; otherwise the parsed capacities are compared |
| `Comparison.Categories` | src/services/api/comparisonService.js:6-47 | five categories whose winners compare display score, camera score, release year, parsed battery capacity and storage score |
| `Comparison.CategoriesInOrder` | src/services/api/comparisonService.js:6-47 | the categories are always Display, Camera, Performance, Battery and Storage, in that order |
| `Comparison.CategoryValues` | src/services/api/comparisonService.js:6-47 | each category shows the two phones' display, camera, processor, battery and storage texts, in that order |
| `Comparison.CategoriesSwap` | src/services/api/comparisonService.js:11-44 | swapping the two phones swaps every category winner and keeps every tie |
| `Comparison.CategoriesSelf` | src/services/api/comparisonService.js:11-44 | a phone compared with itself ties in every category |
| `Comparison.WinsBound` | src/services/api/comparisonService.js:50-51 | model1's and model2's win counts add up to at most the number of categories |
| `Comparison.WinsFlip` | src/services/api/comparisonService.js:50-51 | flipping every winner exchanges the two win counts |
| `Comparison.WinsTextIsNotTie` | src/services/api/comparisonService.js:56-62 | a "wins with" text never equals the tie text |
| `Comparison.SummaryOf` | src/services/api/comparisonService.js:53-81 | the summary reports a tie iff the win counts are equal, and otherwise names the phone with more wins with its count; the recommendation is the first phone's "offers better overall value" text, the second phone's "provides better features" text, or the tie text, case by case; both strengths lists are carried |
| `Comparison.Strengths` | src/services/api/comparisonService.js:70-79 | three strengths: display, camera, "<year> release" |
| `Comparison.GenerateComparison` | src/services/api/comparisonService.js:5-83 | the five categories and the summary for them: at most five wins in all, a tie iff the counts are equal, otherwise the phone with more wins named with its count, and both phones' strengths |
| `Comparison.SummaryTieSwap` | src/services/api/comparisonService.js:50-64 | the summary is a tie for (a, b) iff it is a tie for (b, a) |
| `Comparison.Compare` | src/services/api/comparisonService.js:86-107 | the comparison succeeds iff both names are found, otherwise it fails with "Phone model not found"; it echoes the names and release years of the phones found and carries their categories and summary |
| `Comparison.CompareUsesLookups` | src/services/api/comparisonService.js:89-92 | a successful comparison compares the two phones the name lookups return |
| `Firmware.RegionKnownIff` | src/services/api/firmwareService.js:3-17 | the region is the table entry iff the CSC is a table key, else "Unknown Region" |
| `Firmware.RegionCaseSensitive` | src/services/api/firmwareService.js:17 | the CSC lookup is case-sensitive: "xaa" is an unknown region |
| `Firmware.FirmwarePrefix` | src/services/api/firmwareService.js:21-23 | the prefix is chosen by the first match of S24, S23, A54, else G998 |
| `Firmware.LatestFirmware` | src/services/api/firmwareService.js:25 | the firmware is the prefix followed by "BXXU4CXL2" |
| `Firmware.ExampleS24Ultra` | src/services/api/firmwareService.js:21-29 | "Galaxy S24 Ultra" gets S928BXXU4CXL2 and One UI 6.1 |
| `Firmware.VersionsAgree` | src/services/api/firmwareService.js:21-29 | Android 14 / One UI 6.1 for an S24 model, 14 / 6.0 for an S23 model that is not an S24, otherwise 13 / 5.1; Android 14 iff One UI is not 5.1; One UI 6.1 iff prefix S928, 6.0 iff prefix S918, 5.1 iff prefix A546 or G998 |
| `Firmware.RiskLevel` | src/services/api/firmwareService.js:32-43 | high iff the current firmware contains "AXA"; otherwise medium iff the CSC is TMB, VZW, ATT or SPR; low otherwise |
| `Firmware.NoFirmwareNotHigh` | src/services/api/firmwareService.js:40 | an empty current firmware is never high risk |
| `Firmware.Warnings` | src/services/api/firmwareService.js:45-56 | two to four warnings; downgrade first iff high risk; carrier delay iff VZW or TMB; backup and connection always last |
| `Firmware.BootloaderLocked` | src/services/api/firmwareService.js:68 | the bootloader is reported unlocked iff the CSC is XAA |
| `Firmware.GenerateFirmwareData` | src/services/api/firmwareService.js:16-71 | the record carries the region of the CSC, the latest firmware and versions of the model, the release date 2024-01-15, the risk of the CSC and firmware with its description and warnings (downgrade iff high, carrier delay iff VZW or TMB), and the bootloader flag |
| `Customization.ThemeColors` | src/services/api/customizationService.js:40-43 | the accent differs from #007ACC iff the style is gaming; the primary colour is #007ACC iff the style is not minimal, colorful or dark |
| `Customization.GenerateConfigs` | src/services/api/customizationService.js:22-72 | a configuration key is present iff it is one of the four configurable features and is selected, with that feature's entry |
| `Customization.ConfigsIgnoreOthers` | src/services/api/customizationService.js:22-72 | selecting a feature outside the four configurable ones leaves the configurations as they are |
| `Customization.InstallationSteps` | src/services/api/customizationService.js:74-92 | the three fixed steps, the theme step iff themes, the wallpaper step iff wallpapers (theme first), and the restart step last; 4 to 6 steps, not capped |
| `Customization.Tips` | src/services/api/customizationService.js:94-114 | three or four tips, the backup tip always among them; the minimal tip iff the style is minimal and the gaming tip iff it is gaming, first when present; the edge-panel tip iff edge-panels is selected |
| `Customization.RelevantModules` | src/services/api/customizationService.js:126-131 | every listed Good Lock module belongs to a selected feature |
| `Customization.RelevantModulesAppend` | src/services/api/customizationService.js:126-131 | the module list of a concatenation of selections is the concatenation of their module lists |
| `Customization.RelevantModulesComplete` | src/services/api/customizationService.js:126-131 | every module of every selected feature is listed |
| `Customization.Labels` | src/services/api/customizationService.js:137 | one label per feature, in order |
| `Customization.LabelTwoWords` | src/services/api/customizationService.js:137-138 | "a-b" for two words reads "A B", as "edge-panels" reads "Edge Panels" |
| `Customization.GenerateConfig` | src/services/api/customizationService.js:117-145 | the result echoes model and version, labels every feature and the style, configures exactly the selected configurable features, and lists the Good Lock modules, steps and tips for the selection |
| `Phones.GetAll` | src/services/api/phoneService.js:6-9 | all models in seed order |
| `Phones.GetByName` | src/services/api/phoneService.js:18-23 | found iff some model has exactly that name, and then it is the first such model; otherwise "Phone model not found" |
| `Phones.GetById` | src/services/api/phoneService.js:11-16 | found iff the Id text parses and some model has that Id, and then it is the first such model; otherwise "Phone model not found" |
| `Phones.GetByNameUnique` | src/services/api/phoneService.js:20 | with distinct names, looking a model up by its own name returns it |
| `Phones.GetByIdOfPrinted` | src/services/api/phoneService.js:13 | with distinct Ids, looking a model up by its printed Id returns it |
| `Updates.GetAllSpec` | src/services/api/updateService.js:6-9 | the list is a permutation of the seed list, newest release first, and updates released on the same date keep their seed order |
| `Updates.GetById` | src/services/api/updateService.js:11-16 | found iff the Id text parses and some update has that Id, and then the first such update; otherwise "Update not found" |
| `Updates.GetByModelSpec` | src/services/api/updateService.js:18-21 | the updates with that model, each as often as in the seed list, in seed order, and no other |
| `UpdateTracker.FilterUpdatesIsKeep` | src/components/pages/UpdateTracker.jsx:53-73 | the three optional filter stages equal one filter by their conjunction |
| `UpdateTracker.FilterUpdatesSpec` | src/components/pages/UpdateTracker.jsx:53-73 | the filtered list is a subsequence of the updates and keeps an update iff it passes search, model and type |
| `UpdateTracker.StagesCommute` | src/components/pages/UpdateTracker.jsx:56-70 | applying the stages in the opposite order gives the same list |
| `UpdateTracker.StageOrSkip` | src/components/pages/UpdateTracker.jsx:56-70 | a skipped stage is the same as a filter that keeps everything |
| `UpdateTracker.SearchIgnoresCase` | src/components/pages/UpdateTracker.jsx:56-62 | a search term and its lower-case form match the same updates |
| `UpdateTracker.EmptySearchMatchesAll` | src/components/pages/UpdateTracker.jsx:56-62 | the empty term matches every update |
| `UpdateTracker.ClearedShowsAll` | src/components/pages/UpdateTracker.jsx:322-326 | after Clear Filters the filtered list is the whole list |
| `Home.FilteredToolsSpec` | src/components/pages/Home.jsx:94-99 | the visible tools are a subsequence of the tools, kept iff they match the search and the category |
| `Home.EmptySearchMatches` | src/components/pages/Home.jsx:95-96 | the empty search matches every tool |
| `Home.EmptySearchByCategory` | src/components/pages/Home.jsx:94-99 | with an empty search only the category filter acts |
| `Home.EmptySearchAllTools` | src/components/pages/Home.jsx:97 | category "all" with an empty search shows every tool |
| `Home.TechnicalTools` | src/components/pages/Home.jsx:20-99 | category "technical" with an empty search shows the battery, firmware and update tools, in that order |
| `Header.ActiveIffExtends` | src/components/organisms/Header.jsx:19-22 | a navigation path other than "/" is active exactly on the locations that extend it |
| `Header.AtMostOneActive` | src/components/organisms/Header.jsx:11-22 | no location activates two navigation items |
| `Header.ActiveOnOwnPath` | src/components/organisms/Header.jsx:19-22 | every navigation item is active on its own path |
| `Header.HomeExact` | src/components/organisms/Header.jsx:20 | Home is active iff the path is exactly "/" |
| `Header.OnlyHomeOnRoot` | src/components/organisms/Header.jsx:11-21 | on "/" only the Home item is active |
| `Header.NoSegmentBoundary` | src/components/organisms/Header.jsx:21 | "/update-trackerX" activates the Updates item |
| `Header.NestedPathActive` | src/components/organisms/Header.jsx:21 | every path under "/update-tracker" activates the Updates item |
| `Forms.Toggle` | src/components/pages/UpgradeAdvisor.jsx:57-64 | an absent id is appended; a present id is removed and nothing else is |
| `Forms.ToggleTwice` | src/components/pages/CustomizationGenerator.jsx:194-201 | toggling an absent id twice restores the list |
| `Forms.ToggleNoDup` | src/components/pages/CustomizationGenerator.jsx:194-201 | toggling keeps a list free of duplicates |
| `Forms.ToggleRemovesOne` | src/components/pages/UpgradeAdvisor.jsx:57-64 | in a duplicate-free list, toggling an element removes exactly that position |
| `TradeInPage.HandleInputChange` | src/components/pages/TradeInEstimator.jsx:34-40 | only the named field changes, and the error is cleared |
| `TradeInPage.Guard` | src/components/pages/TradeInEstimator.jsx:45-48 | the submission passes iff model, condition and storage are all non-empty |
| `TradeInPage.Submit` | src/components/pages/TradeInEstimator.jsx:42-63 | a rejected submission keeps the result and sets the message; an accepted one stores the estimate and clears the error |
| `TradeInPage.Reset` | src/components/pages/TradeInEstimator.jsx:65-69 | the empty form, no result, no error |
| `TradeInPage.Retry` | src/components/pages/TradeInEstimator.jsx:88-96 | retry leaves the error screen and changes nothing else |
| `TradeInPage.IncompleteFirstSubmitShowsErrorScreen` | src/components/pages/TradeInEstimator.jsx:42-96 | a blank field on a first submission replaces the form with the error screen |
| `TradeInPage.ErrorScreenNeedsNoResult` | src/components/pages/TradeInEstimator.jsx:88 | once a result exists, no submission shows the error screen |
| `TradeInPage.ConditionColorsMatchTable` | src/components/pages/TradeInEstimator.jsx:78-86 | a condition gets a colour other than gray iff it is in the multiplier table, and the four colours are distinct |
| `BatteryPage.HandleInputChange` | src/components/pages/BatteryHealthChecker.jsx:50-56 | only the named field changes, and the error is cleared |
| `BatteryPage.Guard` | src/components/pages/BatteryHealthChecker.jsx:61-64 | the submission passes iff all five fields are non-empty |
| `BatteryPage.Submit` | src/components/pages/BatteryHealthChecker.jsx:58-79 | a rejected submission keeps the result; an accepted one stores the health check |
| `BatteryPage.Reset` | src/components/pages/BatteryHealthChecker.jsx:81-91 | the empty form, no result, no error |
| `BatteryPage.UnparsableAgeIsPoor` | src/components/pages/BatteryHealthChecker.jsx:58-79 | an age that does not parse still yields a result, rated Poor |
| `BatteryPage.BadgeAgrees` | src/components/pages/BatteryHealthChecker.jsx:93-103 | the icon follows the same thresholds as the colour; success iff Excellent, warning iff Good |
| `BatteryPage.HealthColorMonotone` | src/components/pages/BatteryHealthChecker.jsx:93-97 | a higher score never gets a worse colour |
| `FirmwarePage.HandleInputChange` | src/components/pages/FirmwareChecker.jsx:24-30 | only the named field changes, and the error is cleared |
| `FirmwarePage.Guard` | src/components/pages/FirmwareChecker.jsx:35-38 | the submission passes iff model and CSC are non-empty; the current firmware is optional |
| `FirmwarePage.Submit` | src/components/pages/FirmwareChecker.jsx:32-53 | a rejected submission keeps the result; an accepted one stores the firmware data |
| `FirmwarePage.Reset` | src/components/pages/FirmwareChecker.jsx:55-63 | the empty form, no result, no error |
| `FirmwarePage.EmptyFirmwareAccepted` | src/components/pages/FirmwareChecker.jsx:35-45 | a submission without current firmware is accepted and never rated high risk |
| `FirmwarePage.RiskBadgeCovers` | src/components/pages/FirmwareChecker.jsx:65-81 | every risk level has its own colour and icon; any other text gets default colour iff it gets the Info icon |
| `ComparisonPage.Guard` | src/components/pages/PhoneComparison.jsx:32-40 | the submission passes iff both models are set and different; the blank check comes first |
| `ComparisonPage.Submit` | src/components/pages/PhoneComparison.jsx:29-55 | a rejected submission keeps the result; an accepted one compares the two names |
| `ComparisonPage.NewResultOnlyForValidPair` | src/components/pages/PhoneComparison.jsx:32-46 | a new result only comes from a comparison of two non-empty, distinct names that succeeded |
| `ComparisonPage.UnknownModelFails` | src/components/pages/PhoneComparison.jsx:44-51 | an unknown first model ends in the failure message, with the result unchanged |
| `ComparisonPage.Reset` | src/components/pages/PhoneComparison.jsx:57-61 | the empty form, no result, no error |
| `ComparisonPage.Swap` | src/components/pages/PhoneComparison.jsx:63-68 | swap exchanges the two models and keeps the result and the error |
| `ComparisonPage.SwapTwice` | src/components/pages/PhoneComparison.jsx:63-68 | swapping twice restores the page |
| `ComparisonPage.SwapKeepsGuard` | src/components/pages/PhoneComparison.jsx:32-68 | swapping never changes whether the form passes the guard |
| `ComparisonPage.IconsMirror` | src/components/pages/PhoneComparison.jsx:70-80 | Equal and gray iff tie; the two phones get opposite arrows |
| `UpgradePage.TogglePriority` | src/components/pages/UpgradeAdvisor.jsx:57-64 | the priorities are toggled and every other field, the result and the error are kept |
| `UpgradePage.TogglePriorityTwice` | src/components/pages/UpgradeAdvisor.jsx:57-64 | toggling an absent priority twice restores the page |
| `UpgradePage.TogglePriorityNoDup` | src/components/pages/UpgradeAdvisor.jsx:57-64 | toggling keeps the priorities free of duplicates |
| `UpgradePage.Guard` | src/components/pages/UpgradeAdvisor.jsx:69-72 | the submission passes iff the three fields are set and a priority is selected |
| `UpgradePage.Submit` | src/components/pages/UpgradeAdvisor.jsx:66-87 | a rejected submission keeps the result; an accepted one stores the advice, or the failure message for a budget that is not a bracket key |
| `UpgradePage.Reset` | src/components/pages/UpgradeAdvisor.jsx:89-98 | the empty form, no result, no error |
| `UpgradePage.ScoreColorMonotone` | src/components/pages/UpgradeAdvisor.jsx:100-105 | a higher score never gets a worse badge; success iff ≥ 90; default iff < 50 |
| `CustomizationPage.HandleInputChange` | src/components/pages/CustomizationGenerator.jsx:187-192 | only the named field changes; the result, the error and the preview are kept |
| `CustomizationPage.ToggleFeature` | src/components/pages/CustomizationGenerator.jsx:194-201 | the features are toggled and everything else is kept |
| `CustomizationPage.ToggleFeatureTwice` | src/components/pages/CustomizationGenerator.jsx:194-201 | toggling an absent feature twice restores the page |
| `CustomizationPage.ToggleFeatureNoDup` | src/components/pages/CustomizationGenerator.jsx:194-201 | toggling keeps the features free of duplicates |
| `CustomizationPage.Guard` | src/components/pages/CustomizationGenerator.jsx:206-209 | the submission passes iff model, One UI version and style are set and a feature is selected |
| `CustomizationPage.Submit` | src/components/pages/CustomizationGenerator.jsx:203-222 | a rejected submission keeps the result; an accepted one stores the generated configuration; the preview is kept |
| `CustomizationPage.Reset` | src/components/pages/CustomizationGenerator.jsx:283-292 | the empty form, no result, no error, and the preview panel untouched |
| `Text.ReplaceFirstSplit` | src/services/api/upgradeService.js:125-126 | `replace` with a string pattern rewrites only the first occurrence |
| `Text.CapitalizeTwoWords` | src/services/api/customizationService.js:137-138 | `/\b\w/g` upper-casing turns "a b" into "A B" |
| `Text.ParseIntOfIntToString` | src/services/api/phoneService.js:13 | `parseInt` of a printed integer gives that integer back |
| `Seqs.SortDescSpec` | src/services/api/upgradeService.js:84 | the sort returns a permutation of its input ordered by non-increasing key |
| `Seqs.SortDescStable` | src/services/api/upgradeService.js:84 | the sort is stable: the elements with any one key keep their input order |
| `Seqs.SortDescHead` | src/services/api/upgradeService.js:84 | the first sorted element has the largest key and is the first input element with that key |
| `Seqs.FilterHead` | src/services/api/updateService.js:20 | the first element a filter keeps is the first element of the input that satisfies the predicate |
| `Seqs.FilterSpec` | src/services/api/updateService.js:20 | a filter keeps the elements that satisfy the predicate, each as often as in the input, in order, and nothing else |
| `Seqs.FindIndex` | src/services/api/phoneService.js:13-20 | `find` returns the first element that satisfies the predicate, or nothing iff none does |

## Left out

- Timing and I/O: the `delay` promises, `Date.now()` Ids, ISO timestamps, toasts and loading flags. Service results are the records without Id and timestamp.
- The canvas and script-loader prototype in CustomizationGenerator.jsx: the preview panel is carried as an opaque record that reset leaves alone. This covers canvas validation, resizing, the third-party SDK and `handleGenerate`.
- Overlapping submissions whose responses arrive out of order. That is an interleaving of concurrent calls, not sequential logic.
- Floating point: multipliers are exact integer tenths. Values where binary floating point would round differently from exact decimals are not modelled.
- Date parsing and formatting: release dates are integer keys, and `toLocaleDateString` is not modelled.
- Unicode case mapping: `toLowerCase` and `toUpperCase` are ASCII only.
- `parseInt` beyond 2^53, and white space other than the ASCII and common Unicode spaces listed in `Text.IsJsSpace`.
- The phone and update seed files are not part of this model. They are parameters: sequences of records.
- Keys inherited from `Object.prototype`, such as "constructor" looked up in a table, are treated as missing.
- Rendering: the React components, routing, framer-motion, presentation components and `src/utils/constants.js`. The update tracker's loading, refresh and badge-colour helpers are rendering.
- Comparison.Categories: states the winner of each category; the names are stated by Comparison.CategoriesInOrder and the two shown values by Comparison.CategoryValues. The notes, which are constant text, are not stated.
- Customization.Labels: each label is stated as Customization.Label of its feature; the contract of Label gives the length and the two-word form (Customization.LabelTwoWords), not the label of every possible feature text.
- Customization.GenerateConfig: the feature and style labels are stated through Customization.Label, with the same limit as the line above.

=== FILE: battery.dfy ===
/** The battery health service (`src/services/api/batteryService.js`).
    `phoneAge` arrives as the text of a form field and goes through
    `parseInt`; when it is not a number the score is `NaN`, written `None`
    here, and the status and recommendations follow JavaScript's rule that
    every comparison with `NaN` is false. */
module Battery {
  import opened Wrappers
  import Text

  /** `usageMultipliers` × 10, the points each usage pattern costs. */
  const UsagePenalties: map<string, int> := map[
    "light" := 5,
    "moderate" := 10,
    "heavy" := 15,
    "gaming" := 20
  ]

  const ChargingPenalties: map<string, int> := map[
    "overnight" := 5,
    "frequent" := 3,
    "depleted" := 8,
    "wireless" := 7
  ]

  const HeatPenalties: map<string, int> := map[
    "low" := 2,
    "moderate" := 5,
    "high" := 12
  ]

  const DefaultUsagePenalty := 10
  const DefaultChargingPenalty := 5
  const DefaultHeatPenalty := 5
  const MaxAgePenalty := 40

  function UsagePenalty(usage: string): int {
    if usage in UsagePenalties then UsagePenalties[usage] else DefaultUsagePenalty
  }

  function ChargingPenalty(charging: string): int {
    if charging in ChargingPenalties then ChargingPenalties[charging] else DefaultChargingPenalty
  }

  function HeatPenalty(heat: string): int {
    if heat in HeatPenalties then HeatPenalties[heat] else DefaultHeatPenalty
  }

  /** `Math.min(ageMonths * 2, 40)`: two points a month, at most forty. */
  function AgePenalty(ageMonths: int): (p: int)
    ensures p <= MaxAgePenalty
    ensures ageMonths >= 20 ==> p == MaxAgePenalty
    ensures ageMonths < 20 ==> p == 2 * ageMonths
  {
    if ageMonths * 2 < MaxAgePenalty then ageMonths * 2 else MaxAgePenalty
  }

  /** `Math.max(Math.min(x, 100), 20)`. */
  function Clamp(x: int): (r: int)
    ensures 20 <= r <= 100
    ensures 20 <= x <= 100 ==> r == x
    ensures x < 20 ==> r == 20
    ensures x > 100 ==> r == 100
  {
    if x > 100 then 100 else if x < 20 then 20 else x
  }

  /** `calculateHealthScore` for an age that parsed as a number: one hundred
      less the four penalties, clamped to [20, 100]. */
  function ScoreForAge(ageMonths: int, usage: string, charging: string, heat: string): (r: int)
    ensures 20 <= r <= 100
  {
    Clamp(100 - AgePenalty(ageMonths) - UsagePenalty(usage) - ChargingPenalty(charging) - HeatPenalty(heat))
  }

  /** `calculateHealthScore`, with `None` for the `NaN` an unparsable age gives. */
  function HealthScore(phoneAge: string, usage: string, charging: string, heat: string): (r: Option<int>)
    ensures r.Some? <==> Text.ParseInt(phoneAge).Some?
    ensures r.Some? ==> 20 <= r.value <= 100
  {
    match Text.ParseInt(phoneAge)
    case None => None
    case Some(age) => Some(ScoreForAge(age, usage, charging, heat))
  }

  /** An older phone never scores higher. */
  lemma {:induction false} ScoreAntitoneInAge(a1: int, a2: int, usage: string, charging: string, heat: string)
    requires a1 <= a2
    ensures ScoreForAge(a2, usage, charging, heat) <= ScoreForAge(a1, usage, charging, heat)
  {
  }

  /** From twenty months on the age penalty is capped, so the score no longer changes. */
  lemma {:induction false} AgeCapped(age: int, usage: string, charging: string, heat: string)
    requires age >= 20
    ensures ScoreForAge(age, usage, charging, heat) == ScoreForAge(20, usage, charging, heat)
  {
  }

  /** Keys missing from the tables cost 10, 5 and 5 points: an unknown usage
      pattern scores like "moderate", an unknown charging habit like
      "overnight", an unknown heat exposure like "moderate". */
  lemma {:induction false} UnknownKeysFallback(age: int, usage: string, charging: string, heat: string)
    requires usage !in UsagePenalties && charging !in ChargingPenalties && heat !in HeatPenalties
    ensures ScoreForAge(age, usage, charging, heat) == ScoreForAge(age, "moderate", "overnight", "moderate")
  {
  }

  datatype Status = Excellent | Good | Fair | Poor

  /** `getHealthStatus`; a `NaN` score fails every threshold and is Poor. */
  function HealthStatus(score: Option<int>): (s: Status)
    ensures s == Excellent <==> score.Some? && score.value >= 80
    ensures s == Good <==> score.Some? && 60 <= score.value < 80
    ensures s == Fair <==> score.Some? && 40 <= score.value < 60
    ensures s == Poor <==> score.None? || score.value < 40
  {
    match score
    case None => Poor
    case Some(v) =>
      if v >= 80 then Excellent
      else if v >= 60 then Good
      else if v >= 40 then Fair
      else Poor
  }

  function StatusName(s: Status): string {
    match s
    case Excellent => "Excellent"
    case Good => "Good"
    case Fair => "Fair"
    case Poor => "Poor"
  }

  const ReplaceBatteryTip := "Consider replacing your battery at an authorized Samsung service center"
  const OvernightTip := "Avoid overnight charging to extend battery lifespan"
  const DepletedTip := "Try to keep battery level between 20-80% for optimal health"
  const HeatTip := "Reduce gaming sessions and avoid direct sunlight exposure"
  const GamingTip := "Enable battery saving mode during intensive gaming sessions"
  const GeneralTips := [
    "Use adaptive battery settings in device care",
    "Enable battery protection in Samsung Members app",
    "Consider using original Samsung charger for optimal charging"
  ]

  predicate NeedsReplacement(score: Option<int>) {
    score.Some? && score.value < 60
  }

  /** The advice the rules select, before the cut to four. */
  function ConditionalTips(score: Option<int>, usage: string, charging: string, heat: string): (r: seq<string>)
    ensures |r| <= 4
    ensures NeedsReplacement(score) ==> r != [] && r[0] == ReplaceBatteryTip
  {
    (if NeedsReplacement(score) then [ReplaceBatteryTip] else [])
    + (if charging == "overnight" then [OvernightTip] else [])
    + (if charging == "depleted" then [DepletedTip] else [])
    + (if heat == "high" then [HeatTip] else [])
    + (if usage == "gaming" then [GamingTip] else [])
  }

  /** Each piece of advice is selected exactly when its rule fires. */
  lemma {:induction false} ConditionalTipsMembers(score: Option<int>, usage: string, charging: string, heat: string)
    ensures var c := ConditionalTips(score, usage, charging, heat);
      && (ReplaceBatteryTip in c <==> NeedsReplacement(score))
      && (OvernightTip in c <==> charging == "overnight")
      && (DepletedTip in c <==> charging == "depleted")
      && (HeatTip in c <==> heat == "high")
      && (GamingTip in c <==> usage == "gaming")
  {
  }

  /** At most four pieces of advice fire, so the cut to four keeps all of
      them, and nothing else in the list is advice. */
  lemma {:induction false} CutKeepsAdvice(conditional: seq<string>, r: seq<string>)
    requires |conditional| <= 4
    requires r == if |conditional + GeneralTips| <= 4 then conditional + GeneralTips
                  else (conditional + GeneralTips)[..4]
    ensures forall t :: t !in GeneralTips ==> (t in r <==> t in conditional)
  {
    var all := conditional + GeneralTips;
    forall t | t !in GeneralTips
      ensures t in r <==> t in conditional
    {
      if t in conditional {
        var k :| 0 <= k < |conditional| && conditional[k] == t;
        assert r[k] == t;
      }
      if t in r {
        var k :| 0 <= k < |r| && r[k] == t;
        assert all[k] == t;
        if k >= |conditional| {
          assert GeneralTips[k - |conditional|] == t;
        }
      }
    }
  }

  /** `generateRecommendations`: the selected advice, then the general tips,
      cut to the first four. The general tips are crowded out when four rules fire. */
  function Recommendations(score: Option<int>, usage: string, charging: string, heat: string): (r: seq<string>)
    ensures 3 <= |r| <= 4
    ensures NeedsReplacement(score) ==> r[0] == ReplaceBatteryTip
    ensures (ReplaceBatteryTip in r) <==> NeedsReplacement(score)
    ensures (OvernightTip in r) <==> charging == "overnight"
    ensures (DepletedTip in r) <==> charging == "depleted"
    ensures (HeatTip in r) <==> heat == "high"
    ensures (GamingTip in r) <==> usage == "gaming"
    ensures |ConditionalTips(score, usage, charging, heat)| == 0 ==> r == GeneralTips
  {
    var conditional := ConditionalTips(score, usage, charging, heat);
    var all := conditional + GeneralTips;
    var r := if |all| <= 4 then all else all[..4];
    ConditionalTipsMembers(score, usage, charging, heat);
    CutKeepsAdvice(conditional, r);
    assert r[..|conditional|] == conditional;
    r
  }

  /** The record `checkHealth` resolves with, without its Id and timestamp. */
  datatype HealthResult = HealthResult(
    model: string,
    phoneAge: Option<int>,
    usagePattern: string,
    chargingHabits: string,
    heatExposure: string,
    healthScore: Option<int>,
    status: Status,
    recommendations: seq<string>)

  function CheckHealth(model: string, phoneAge: string, usage: string, charging: string, heat: string): (h: HealthResult)
    ensures h.model == model && h.usagePattern == usage
    ensures h.chargingHabits == charging && h.heatExposure == heat
    ensures h.phoneAge == Text.ParseInt(phoneAge)
    ensures h.healthScore == HealthScore(phoneAge, usage, charging, heat)
    ensures h.healthScore.Some? <==> h.phoneAge.Some?
    ensures h.healthScore.Some? ==> h.healthScore.value == ScoreForAge(h.phoneAge.value, usage, charging, heat)
    ensures h.status == HealthStatus(h.healthScore)
    ensures h.recommendations == Recommendations(h.healthScore, usage, charging, heat)
    ensures NeedsReplacement(h.healthScore) ==> h.recommendations[0] == ReplaceBatteryTip
  {
    var score := HealthScore(phoneAge, usage, charging, heat);
    HealthResult(model, Text.ParseInt(phoneAge), usage, charging, heat,
                 score, HealthStatus(score), Recommendations(score, usage, charging, heat))
  }

  /** 24 months of gaming, charged when depleted, in high heat:
      100 - 40 - 20 - 8 - 12 = 20, which is Poor. */
  lemma {:induction false} ExampleWorstCase()
    ensures HealthScore("24", "gaming", "depleted", "high") == Some(20)
    ensures HealthStatus(Some(20)) == Poor
  {
    ParseTwentyFour();
    assert ScoreForAge(24, "gaming", "depleted", "high") == 20;
  }

  lemma {:induction false} PrintTwentyFour()
    ensures Text.IntToString(24) == "24"
  {
    assert Text.NatToString(2) == [Text.DigitChar(2)] == "2";
    assert Text.NatToString(24) == Text.NatToString(2) + [Text.DigitChar(4)];
  }

  lemma {:induction false} ParseTwentyFour()
    ensures Text.ParseInt("24") == Some(24)
  {
    PrintTwentyFour();
    Text.ParseIntOfIntToString(24);
  }
}

=== FILE: battery_page.dfy ===
/** The battery health checker page (`src/components/pages/BatteryHealthChecker.jsx`):
    its form, the submit guard and the health badge. */
module BatteryPage {
  import opened Wrappers
  import Forms
  import Battery

  datatype Form = Form(model: string, phoneAge: string, usagePattern: string,
                       chargingHabits: string, heatExposure: string)

  datatype Field = Model | PhoneAge | UsagePattern | ChargingHabits | HeatExposure

  function Get(f: Form, field: Field): string {
    match field
    case Model => f.model
    case PhoneAge => f.phoneAge
    case UsagePattern => f.usagePattern
    case ChargingHabits => f.chargingHabits
    case HeatExposure => f.heatExposure
  }

  function SetField(f: Form, field: Field, value: string): (g: Form)
    ensures Get(g, field) == value
    ensures forall other :: other != field ==> Get(g, other) == Get(f, other)
  {
    match field
    case Model => f.(model := value)
    case PhoneAge => f.(phoneAge := value)
    case UsagePattern => f.(usagePattern := value)
    case ChargingHabits => f.(chargingHabits := value)
    case HeatExposure => f.(heatExposure := value)
  }

  type State = Forms.Page<Form, Battery.HealthResult>

  const EmptyForm := Form("", "", "", "", "")
  const MissingFields := "Please fill in all required fields"
  const Failure := "Failed to analyze battery health. Please try again."

  function Reset(): (s: State)
    ensures s.form == EmptyForm && s.result.None? && s.error == ""
  {
    Forms.Blank(EmptyForm)
  }

  function HandleInputChange(s: State, field: Field, value: string): (t: State)
    ensures Get(t.form, field) == value
    ensures forall other :: other != field ==> Get(t.form, other) == Get(s.form, other)
    ensures t.result == s.result && t.error == ""
  {
    s.(form := SetField(s.form, field, value), error := "")
  }

  /** All five fields are required. */
  function Guard(f: Form): (m: Option<string>)
    ensures m.None? <==> forall field :: Get(f, field) != ""
    ensures m.Some? ==> m.value == MissingFields
  {
    if f.model == "" || f.phoneAge == "" || f.usagePattern == "" || f.chargingHabits == "" || f.heatExposure == "" then
      assert Get(f, Model) == "" || Get(f, PhoneAge) == "" || Get(f, UsagePattern) == ""
          || Get(f, ChargingHabits) == "" || Get(f, HeatExposure) == "";
      Some(MissingFields)
    else None
  }

  function Check(f: Form): Battery.HealthResult {
    Battery.CheckHealth(f.model, f.phoneAge, f.usagePattern, f.chargingHabits, f.heatExposure)
  }

  function Submit(s: State): (t: State)
    ensures t.form == s.form
    ensures Guard(s.form).Some? ==> t.result == s.result && t.error == MissingFields
    ensures Guard(s.form).None? ==> t.result == Some(Check(s.form)) && t.error == ""
  {
    match Guard(s.form)
    case Some(m) => Forms.Reject(s, m)
    case None => Forms.Complete(s, Ok(Check(s.form)), Failure)
  }

  /** A non-empty age that is not a number passes the guard, and the page
      then shows a result with no score and the status Poor. */
  lemma {:induction false} UnparsableAgeIsPoor(s: State)
    requires Guard(s.form).None?
    requires Battery.HealthScore(s.form.phoneAge, s.form.usagePattern, s.form.chargingHabits, s.form.heatExposure).None?
    ensures Submit(s).result.Some? && Submit(s).result.value.status == Battery.Poor
  {
  }

  datatype Badge = Success | Warning | Error

  /** `getHealthColor`; a `NaN` score fails both thresholds. */
  function HealthColor(score: Option<int>): Badge {
    if score.Some? && score.value >= 80 then Success
    else if score.Some? && score.value >= 60 then Warning
    else Error
  }

  /** `getHealthIcon`. */
  function HealthIcon(score: Option<int>): string {
    if score.Some? && score.value >= 80 then "Battery"
    else if score.Some? && score.value >= 60 then "AlertTriangle"
    else "BatteryLow"
  }

  function IconOf(b: Badge): string {
    match b
    case Success => "Battery"
    case Warning => "AlertTriangle"
    case Error => "BatteryLow"
  }

  /** Icon and colour use the same thresholds, and the colour agrees with
      the service's status: success is Excellent, warning is Good. */
  lemma {:induction false} BadgeAgrees(score: Option<int>)
    ensures HealthIcon(score) == IconOf(HealthColor(score))
    ensures HealthColor(score) == Success <==> Battery.HealthStatus(score) == Battery.Excellent
    ensures HealthColor(score) == Warning <==> Battery.HealthStatus(score) == Battery.Good
  {
  }

  function Rank(b: Badge): nat {
    match b
    case Error => 0
    case Warning => 1
    case Success => 2
  }

  /** A higher score never gets a worse badge. */
  lemma {:induction false} HealthColorMonotone(a: int, b: int)
    requires a <= b
    ensures Rank(HealthColor(Some(a))) <= Rank(HealthColor(Some(b)))
  {
  }
}

=== FILE: comparison.dfy ===
/** The phone comparison service (`src/services/api/comparisonService.js`):
    five categories, each won by the model with the larger key or tied, and a
    summary that counts the wins. */
module Comparison {
  import opened Wrappers
  import Text
  import Phones

  datatype Winner = Model1 | Model2 | Tie

  /** `a > b ? 'model1' : a < b ? 'model2' : 'tie'`. */
  function Compare3(a: int, b: int): (w: Winner)
    ensures w == Model1 <==> a > b
    ensures w == Model2 <==> a < b
    ensures w == Tie <==> a == b
  {
    if a > b then Model1 else if a < b then Model2 else Tie
  }

  /** The same comparison on `parseInt` results: `NaN` on either side fails
      both tests, so the category is a tie. */
  function CompareParsed(a: Option<int>, b: Option<int>): (w: Winner)
    ensures a.None? || b.None? ==> w == Tie
    ensures a.Some? && b.Some? ==> w == Compare3(a.value, b.value)
  {
    if a.Some? && b.Some? then Compare3(a.value, b.value) else Tie
  }

  /** The winner seen from the other side. */
  function Flip(w: Winner): (f: Winner)
    ensures (f == Tie) == (w == Tie)
  {
    match w
    case Model1 => Model2
    case Model2 => Model1
    case Tie => Tie
  }

  lemma {:induction false} Compare3Swap(a: int, b: int)
    ensures Compare3(b, a) == Flip(Compare3(a, b))
  {
  }

  datatype Category = Category(
    name: string,
    model1Value: string,
    model2Value: string,
    winner: Winner,
    notes: string)

  const CategoryNames := ["Display", "Camera", "Performance", "Battery", "Storage"]

  /** The battery capacity the comparison reads: the leading integer of the
      battery text, such as 5000 for "5000mAh". */
  function BatteryCapacity(m: Phones.PhoneModel): Option<int> {
    Text.ParseInt(m.specs.battery)
  }

  /** The five categories, in order. */
  function Categories(m1: Phones.PhoneModel, m2: Phones.PhoneModel): (cs: seq<Category>)
    ensures |cs| == 5
    ensures cs[0].winner == Compare3(m1.specs.displayScore, m2.specs.displayScore)
    ensures cs[1].winner == Compare3(m1.specs.cameraScore, m2.specs.cameraScore)
    ensures cs[2].winner == Compare3(m1.releaseYear, m2.releaseYear)
    ensures cs[3].winner == CompareParsed(BatteryCapacity(m1), BatteryCapacity(m2))
    ensures cs[4].winner == Compare3(m1.specs.storageScore, m2.specs.storageScore)
  {
    [
      Category(CategoryNames[0], m1.specs.display, m2.specs.display,
               Compare3(m1.specs.displayScore, m2.specs.displayScore),
               "Based on size, resolution, and refresh rate"),
      Category(CategoryNames[1], m1.specs.camera, m2.specs.camera,
               Compare3(m1.specs.cameraScore, m2.specs.cameraScore),
               "Main camera megapixels and features"),
      Category(CategoryNames[2], m1.specs.processor, m2.specs.processor,
               Compare3(m1.releaseYear, m2.releaseYear),
               "Processor performance and generation"),
      Category(CategoryNames[3], m1.specs.battery, m2.specs.battery,
               CompareParsed(BatteryCapacity(m1), BatteryCapacity(m2)),
               "Battery capacity and charging speed"),
      Category(CategoryNames[4], m1.specs.storage, m2.specs.storage,
               Compare3(m1.specs.storageScore, m2.specs.storageScore),
               "Base storage and expandability")
    ]
  }

  /** Each category shows the two phones' texts for it: display, camera,
      processor (although Performance is decided by release year), battery
      and storage. */
  lemma {:induction false} CategoryValues(m1: Phones.PhoneModel, m2: Phones.PhoneModel)
    ensures var cs := Categories(m1, m2);
      && cs[0].model1Value == m1.specs.display && cs[0].model2Value == m2.specs.display
      && cs[1].model1Value == m1.specs.camera && cs[1].model2Value == m2.specs.camera
      && cs[2].model1Value == m1.specs.processor && cs[2].model2Value == m2.specs.processor
      && cs[3].model1Value == m1.specs.battery && cs[3].model2Value == m2.specs.battery
      && cs[4].model1Value == m1.specs.storage && cs[4].model2Value == m2.specs.storage
  {
  }

  /** The categories come in the order Display, Camera, Performance,
      Battery, Storage, whatever the phones. */
  lemma {:induction false} CategoriesInOrder(m1: Phones.PhoneModel, m2: Phones.PhoneModel)
    ensures forall i :: 0 <= i < 5 ==> Categories(m1, m2)[i].name == CategoryNames[i]
  {
    var cs := Categories(m1, m2);
    forall i | 0 <= i < 5
      ensures cs[i].name == CategoryNames[i]
    {
      assert i == 0 || i == 1 || i == 2 || i == 3 || i == 4;
    }
  }

  /** Swapping the two phones swaps the winner of every category and keeps
      every tie. */
  lemma {:induction false} CategoriesSwap(m1: Phones.PhoneModel, m2: Phones.PhoneModel)
    ensures forall i :: 0 <= i < 5 ==> Categories(m2, m1)[i].winner == Flip(Categories(m1, m2)[i].winner)
  {
    var cs, ds := Categories(m1, m2), Categories(m2, m1);
    Compare3Swap(m1.specs.displayScore, m2.specs.displayScore);
    Compare3Swap(m1.specs.cameraScore, m2.specs.cameraScore);
    Compare3Swap(m1.releaseYear, m2.releaseYear);
    Compare3Swap(m1.specs.storageScore, m2.specs.storageScore);
    if BatteryCapacity(m1).Some? && BatteryCapacity(m2).Some? {
      Compare3Swap(BatteryCapacity(m1).value, BatteryCapacity(m2).value);
    }
    forall i | 0 <= i < 5
      ensures ds[i].winner == Flip(cs[i].winner)
    {
      assert i == 0 || i == 1 || i == 2 || i == 3 || i == 4;
    }
  }

  /** A phone compared with itself ties in every category. */
  lemma {:induction false} CategoriesSelf(m: Phones.PhoneModel)
    ensures forall i :: 0 <= i < 5 ==> Categories(m, m)[i].winner == Tie
  {
  }

  /** `categories.filter(cat => cat.winner === w).length`. */
  function Wins(cs: seq<Category>, w: Winner): (n: nat)
    ensures n <= |cs|
  {
    if cs == [] then 0 else (if cs[0].winner == w then 1 else 0) + Wins(cs[1..], w)
  }

  /** The two win counts never add up to more than the number of categories. */
  lemma {:induction false} WinsBound(cs: seq<Category>)
    ensures Wins(cs, Model1) + Wins(cs, Model2) <= |cs|
  {
    if cs != [] {
      WinsBound(cs[1..]);
    }
  }

  /** Flipping every winner exchanges the two counts. */
  lemma {:induction false} WinsFlip(cs: seq<Category>, ds: seq<Category>)
    requires |cs| == |ds|
    requires forall i :: 0 <= i < |cs| ==> ds[i].winner == Flip(cs[i].winner)
    ensures Wins(ds, Model1) == Wins(cs, Model2)
    ensures Wins(ds, Model2) == Wins(cs, Model1)
  {
    if cs != [] {
      WinsFlip(cs[1..], ds[1..]);
    }
  }

  const TieText := "It's a tie! Both phones excel in different areas"
  const TieRecommendation := "Choose based on your specific priorities - both phones offer excellent value."

  datatype Summary = Summary(
    winner: string,
    model1Strengths: seq<string>,
    model2Strengths: seq<string>,
    recommendation: string)

  function WinsText(name: string, wins: nat): string {
    name + " wins with " + Text.IntToString(wins) + " categories"
  }

  /** The strengths listed for a phone: display, camera, release year. */
  function Strengths(m: Phones.PhoneModel): (r: seq<string>)
    ensures |r| == 3
    ensures r[0] == m.specs.display && r[1] == m.specs.camera
    ensures r[2] == Text.IntToString(m.releaseYear) + " release"
  {
    [m.specs.display, m.specs.camera, Text.IntToString(m.releaseYear) + " release"]
  }

  /** A win announcement ends in "categories" and so never reads as the tie text. */
  lemma {:induction false} WinsTextIsNotTie(name: string, wins: nat)
    ensures WinsText(name, wins) != TieText
  {
    var w := WinsText(name, wins);
    assert w[|w| - 2] == 'e';
    assert TieText[|TieText| - 2] == 'a';
  }

  function SummaryOf(m1: Phones.PhoneModel, m2: Phones.PhoneModel, cs: seq<Category>): (s: Summary)
    ensures s.winner == TieText <==> Wins(cs, Model1) == Wins(cs, Model2)
    ensures Wins(cs, Model1) > Wins(cs, Model2) ==> s.winner == WinsText(m1.name, Wins(cs, Model1))
    ensures Wins(cs, Model2) > Wins(cs, Model1) ==> s.winner == WinsText(m2.name, Wins(cs, Model2))
    ensures Wins(cs, Model1) > Wins(cs, Model2) ==>
              s.recommendation == "The " + m1.name + " offers better overall value with superior performance in key areas."
    ensures Wins(cs, Model2) > Wins(cs, Model1) ==>
              s.recommendation == "The " + m2.name + " provides better features and performance for most users."
    ensures Wins(cs, Model1) == Wins(cs, Model2) ==> s.recommendation == TieRecommendation
    ensures s.model1Strengths == Strengths(m1) && s.model2Strengths == Strengths(m2)
  {
    var w1, w2 := Wins(cs, Model1), Wins(cs, Model2);
    WinsTextIsNotTie(m1.name, w1);
    WinsTextIsNotTie(m2.name, w2);
    if w1 > w2 then
      Summary(WinsText(m1.name, w1), Strengths(m1), Strengths(m2),
              "The " + m1.name + " offers better overall value with superior performance in key areas.")
    else if w2 > w1 then
      Summary(WinsText(m2.name, w2), Strengths(m1), Strengths(m2),
              "The " + m2.name + " provides better features and performance for most users.")
    else
      Summary(TieText, Strengths(m1), Strengths(m2), TieRecommendation)
  }

  /** `generateComparison`. */
  datatype ComparisonData = ComparisonData(categories: seq<Category>, summary: Summary)

  function GenerateComparison(m1: Phones.PhoneModel, m2: Phones.PhoneModel): (c: ComparisonData)
    ensures c.categories == Categories(m1, m2)
    ensures c.summary == SummaryOf(m1, m2, c.categories)
    ensures Wins(c.categories, Model1) + Wins(c.categories, Model2) <= 5
    ensures c.summary.winner == TieText <==> Wins(c.categories, Model1) == Wins(c.categories, Model2)
  {
    var cs := Categories(m1, m2);
    WinsBound(cs);
    ComparisonData(cs, SummaryOf(m1, m2, cs))
  }

  /** A swap never changes whether the summary is a tie. */
  lemma {:induction false} SummaryTieSwap(m1: Phones.PhoneModel, m2: Phones.PhoneModel)
    ensures (GenerateComparison(m1, m2).summary.winner == TieText)
         == (GenerateComparison(m2, m1).summary.winner == TieText)
  {
    CategoriesSwap(m1, m2);
    WinsFlip(Categories(m1, m2), Categories(m2, m1));
  }

  /** The record `compare` resolves with, without its Id and timestamp. */
  datatype ComparisonResult = ComparisonResult(
    model1Name: string,
    model1Year: int,
    model2Name: string,
    model2Year: int,
    categories: seq<Category>,
    summary: Summary)

  /** `compare`: both names looked up in the model list, the first failure
      propagated. */
  function Compare(models: seq<Phones.PhoneModel>, name1: string, name2: string): (r: Result<ComparisonResult>)
    ensures r.Ok? <==> Phones.GetByName(models, name1).Ok? && Phones.GetByName(models, name2).Ok?
    ensures r.Err? ==> r.error == Phones.NotFound
    ensures r.Ok? ==> r.value.model1Name == name1 && r.value.model2Name == name2
    ensures r.Ok? ==> var m1, m2 := Phones.GetByName(models, name1).value, Phones.GetByName(models, name2).value;
      && r.value.model1Year == m1.releaseYear && r.value.model2Year == m2.releaseYear
      && r.value.categories == Categories(m1, m2)
      && r.value.summary == SummaryOf(m1, m2, r.value.categories)
  {
    var m1 :- Phones.GetByName(models, name1);
    var m2 :- Phones.GetByName(models, name2);
    var c := GenerateComparison(m1, m2);
    Ok(ComparisonResult(m1.name, m1.releaseYear, m2.name, m2.releaseYear, c.categories, c.summary))
  }

  /** The comparison reads exactly the two looked-up models. */
  lemma {:induction false} CompareUsesLookups(models: seq<Phones.PhoneModel>, name1: string, name2: string)
    requires Compare(models, name1, name2).Ok?
    ensures Compare(models, name1, name2).value.categories ==
            Categories(Phones.GetByName(models, name1).value, Phones.GetByName(models, name2).value)
  {
  }
}

=== FILE: comparison_page.dfy ===
/** The phone comparison page (`src/components/pages/PhoneComparison.jsx`):
    two model pickers, a swap button, the submit guards and the winner icons. */
module ComparisonPage {
  import opened Wrappers
  import Forms
  import Phones
  import Comparison

  datatype Form = Form(model1: string, model2: string)

  type State = Forms.Page<Form, Comparison.ComparisonResult>

  const EmptyForm := Form("", "")
  const SelectBoth := "Please select both phone models"
  const SelectDifferent := "Please select different phone models"
  const Failure := "Failed to compare phones. Please try again."

  function Reset(): (s: State)
    ensures s.form == EmptyForm && s.result.None? && s.error == ""
  {
    Forms.Blank(EmptyForm)
  }

  /** The guards run in order: a blank picker first, then equal models. */
  function Guard(f: Form): (m: Option<string>)
    ensures m.None? <==> f.model1 != "" && f.model2 != "" && f.model1 != f.model2
    ensures (f.model1 == "" || f.model2 == "") ==> m == Some(SelectBoth)
    ensures f.model1 != "" && f.model2 != "" && f.model1 == f.model2 ==> m == Some(SelectDifferent)
  {
    if f.model1 == "" || f.model2 == "" then Some(SelectBoth)
    else if f.model1 == f.model2 then Some(SelectDifferent)
    else None
  }

  /** `handleSubmit`, over the model list the lookups read. */
  function Submit(s: State, models: seq<Phones.PhoneModel>): (t: State)
    ensures t.form == s.form
    ensures Guard(s.form).Some? ==> t.result == s.result && t.error == Guard(s.form).value
    ensures Guard(s.form).None? ==>
              t == Forms.Complete(s, Comparison.Compare(models, s.form.model1, s.form.model2), Failure)
  {
    match Guard(s.form)
    case Some(m) => Forms.Reject(s, m)
    case None => Forms.Complete(s, Comparison.Compare(models, s.form.model1, s.form.model2), Failure)
  }

  /** A new comparison appears only for two distinct, non-empty names, and
      it is the comparison of exactly those names. */
  lemma {:induction false} NewResultOnlyForValidPair(s: State, models: seq<Phones.PhoneModel>)
    requires Submit(s, models).result != s.result
    ensures s.form.model1 != "" && s.form.model2 != "" && s.form.model1 != s.form.model2
    ensures Comparison.Compare(models, s.form.model1, s.form.model2).Ok?
    ensures Submit(s, models).result == Some(Comparison.Compare(models, s.form.model1, s.form.model2).value)
  {
  }

  /** A name missing from the list shows the failure message. */
  lemma {:induction false} UnknownModelFails(s: State, models: seq<Phones.PhoneModel>)
    requires Guard(s.form).None?
    requires Phones.GetByName(models, s.form.model1).Err?
    ensures Submit(s, models).error == Failure && Submit(s, models).result == s.result
  {
  }

  /** `handleSwap`: the pickers exchange values; result and error stay. */
  function Swap(s: State): (t: State)
    ensures t.form.model1 == s.form.model2 && t.form.model2 == s.form.model1
    ensures t.result == s.result && t.error == s.error
  {
    s.(form := Form(s.form.model2, s.form.model1))
  }

  lemma {:induction false} SwapTwice(s: State)
    ensures Swap(Swap(s)) == s
  {
  }

  /** Swapping never changes whether the guard accepts the form. */
  lemma {:induction false} SwapKeepsGuard(s: State)
    ensures Guard(Swap(s).form) == Guard(s.form)
  {
  }

  /** The winner as the service spells it. */
  function WinnerName(w: Comparison.Winner): string {
    match w
    case Model1 => "model1"
    case Model2 => "model2"
    case Tie => "tie"
  }

  /** `getComparisonIcon`: anything that is neither a tie nor model1 points right. */
  function ComparisonIcon(winner: string): string {
    if winner == "tie" then "Equal"
    else if winner == "model1" then "ArrowLeft"
    else "ArrowRight"
  }

  /** `getComparisonColor`. */
  function ComparisonColor(winner: string): string {
    if winner == "tie" then "text-gray-500"
    else if winner == "model1" then "text-blue-600"
    else "text-green-600"
  }

  /** Each winner has its own icon, and swapping the phones mirrors the arrow. */
  lemma {:induction false} IconsMirror(w: Comparison.Winner)
    ensures ComparisonIcon(WinnerName(w)) == "Equal" <==> w == Comparison.Tie
    ensures w != Comparison.Tie ==>
              ComparisonIcon(WinnerName(Comparison.Flip(w))) != ComparisonIcon(WinnerName(w))
    ensures ComparisonColor(WinnerName(w)) == "text-gray-500" <==> w == Comparison.Tie
  {
  }
}

=== FILE: customization.dfy ===
/** The One UI customization service (`src/services/api/customizationService.js`):
    a configuration entry per selected feature, the Good Lock modules the
    features call for, installation steps, tips and display labels. */
module Customization {
  import Text

  datatype GoodLockModule = GoodLockModule(name: string, description: string)

  /** `goodLockModules`: the modules behind each feature that has any. */
  const GoodLockModules: map<string, seq<GoodLockModule>> := map[
    "good-lock" := [
      GoodLockModule("MultiStar", "Multi-window enhancements"),
      GoodLockModule("Sound Assistant", "Audio customization"),
      GoodLockModule("Task Changer", "Recent apps customization")
    ],
    "themes" := [
      GoodLockModule("Theme Park", "Create custom themes"),
      GoodLockModule("Icon Pack Studio", "Design custom icons")
    ],
    "edge-panels" := [
      GoodLockModule("Edge Touch", "Edge sensitivity control"),
      GoodLockModule("Edge Lighting+", "Enhanced edge lighting")
    ],
    "always-on" := [
      GoodLockModule("ClockFace", "Always On Display customization")
    ]
  ]

  /** One audio profile: its name and the one setting it carries. */
  datatype SoundProfile = SoundProfile(name: string, setting: string, enabled: bool)

  /** The entries of the `configs` object, one shape per feature. */
  datatype Config =
    | GoodLockConfig(description: string, modules: seq<GoodLockModule>,
                     multiWindow: bool, soundEnhancement: bool, taskChanger: bool)
    | ThemesConfig(description: string, primaryColor: string, accentColor: string,
                   wallpaperStyle: string, iconPack: string)
    | WallpapersConfig(description: string, kind: string, category: string,
                       autoChange: bool, interval: string)
    | SoundConfig(description: string, profiles: seq<SoundProfile>)

  /** The features that get a configuration entry. */
  const ConfigFeatures: set<string> := {"good-lock", "themes", "wallpapers", "sound"}

  function PrimaryColor(style: string): string {
    if style == "minimal" then "#000000"
    else if style == "colorful" then "#FF6B6B"
    else if style == "dark" then "#1A1A1A"
    else "#007ACC"
  }

  function AccentColor(style: string): string {
    if style == "gaming" then "#00FF00" else "#007ACC"
  }

  /** The accent differs from the default blue only for gaming, and the
      primary colour is the default blue exactly for the styles without a
      colour of their own. */
  lemma {:induction false} ThemeColors(style: string)
    ensures AccentColor(style) != "#007ACC" <==> style == "gaming"
    ensures PrimaryColor(style) == "#007ACC" <==> style !in {"minimal", "colorful", "dark"}
  {
  }

  function WallpaperCategory(style: string): string {
    if style == "minimal" then "abstract" else if style == "gaming" then "neon" else "nature"
  }

  function GoodLockEntry(style: string): Config {
    GoodLockConfig("Good Lock module configuration", GoodLockModules["good-lock"],
                   style == "productivity", style == "gaming", true)
  }

  function ThemesEntry(style: string): Config {
    ThemesConfig("Theme and visual customization", PrimaryColor(style), AccentColor(style),
                 style, if style == "minimal" then "Clean" else "Dynamic")
  }

  function WallpapersEntry(style: string): Config {
    WallpapersConfig("Dynamic wallpaper settings", "dynamic", WallpaperCategory(style), true, "1 hour")
  }

  function SoundEntry(style: string): Config {
    SoundConfig("Audio profile configuration", [
      SoundProfile("Gaming", "enhanced", style == "gaming"),
      SoundProfile("Music", "dolbyAtmos", true),
      SoundProfile("Calls", "noiseCancellation", true)
    ])
  }

  /** `generateConfigs`; the model and One UI version it is passed are unused. */
  function GenerateConfigs(features: seq<string>, style: string): (c: map<string, Config>)
    ensures forall k :: k in c <==> k in ConfigFeatures && k in features
    ensures "good-lock" in c ==> c["good-lock"] == GoodLockEntry(style)
    ensures "themes" in c ==> c["themes"] == ThemesEntry(style)
    ensures "wallpapers" in c ==> c["wallpapers"] == WallpapersEntry(style)
    ensures "sound" in c ==> c["sound"] == SoundEntry(style)
  {
    var c1 := AddIfSelected(map[], features, "good-lock", GoodLockEntry(style));
    var c2 := AddIfSelected(c1, features, "themes", ThemesEntry(style));
    var c3 := AddIfSelected(c2, features, "wallpapers", WallpapersEntry(style));
    AddIfSelected(c3, features, "sound", SoundEntry(style))
  }

  /** `if (features.includes(key)) configs[key] = entry`. */
  function AddIfSelected(c: map<string, Config>, features: seq<string>, key: string, entry: Config): (r: map<string, Config>)
    ensures forall k :: k in r <==> k in c || (k == key && key in features)
    ensures key in features ==> r[key] == entry
    ensures forall k :: k in c && k != key ==> r[k] == c[k]
  {
    if key in features then c[key := entry] else c
  }

  /** Features outside the four configurable ones, such as "edge-panels",
      leave the configuration map as it is. */
  lemma {:induction false} ConfigsIgnoreOthers(features: seq<string>, f: string, style: string)
    requires f !in ConfigFeatures
    ensures GenerateConfigs(features + [f], style) == GenerateConfigs(features, style)
  {
    var a, b := GenerateConfigs(features + [f], style), GenerateConfigs(features, style);
    forall k | k in ConfigFeatures
      ensures (k in features + [f]) == (k in features)
    {
    }
    assert a.Keys == b.Keys;
  }

  const FixedSteps := [
    "Download Galaxy Store app if not already installed",
    "Search for \"Good Lock\" in Galaxy Store and install",
    "Open Good Lock and install required modules"
  ]
  const ThemeStep := "Apply custom theme through Settings > Themes"
  const WallpaperStep := "Set dynamic wallpapers through Settings > Wallpapers"
  const RestartStep := "Restart your device to apply all changes"

  /** `generateInstallationSteps`: three fixed steps, a theme step and a
      wallpaper step when those features are selected, and the restart step last. */
  function InstallationSteps(features: seq<string>): (r: seq<string>)
    ensures 4 <= |r| <= 6
    ensures r[..3] == FixedSteps && r[|r| - 1] == RestartStep
    ensures ThemeStep in r <==> "themes" in features
    ensures WallpaperStep in r <==> "wallpapers" in features
    ensures |r| == 4 + (if "themes" in features then 1 else 0) + (if "wallpapers" in features then 1 else 0)
    ensures "themes" in features && "wallpapers" in features ==> r[3] == ThemeStep && r[4] == WallpaperStep
  {
    var themes := if "themes" in features then [ThemeStep] else [];
    var wallpapers := if "wallpapers" in features then [WallpaperStep] else [];
    var r := FixedSteps + themes + wallpapers + [RestartStep];
    assert "themes" in features ==> r[3] == ThemeStep;
    assert "wallpapers" in features ==> r[3 + |themes|] == WallpaperStep;
    assert ThemeStep !in FixedSteps + wallpapers + [RestartStep];
    assert WallpaperStep !in FixedSteps + themes + [RestartStep];
    r
  }

  const MinimalTip := "Use fewer widgets and apps on home screen for cleaner look"
  const GamingTip := "Enable Game Mode for better performance during gaming"
  const EdgePanelTip := "Customize edge panels for quick access to frequently used apps"
  const BackupTip := "Backup your current settings before applying new configurations"
  const GeneralTips := [
    BackupTip,
    "Test configurations gradually to find what works best for you",
    "Join Samsung Members community for more customization tips"
  ]

  /** `generateTips`: a style tip, an edge-panel tip, then the general tips,
      cut to the first four. At most two tips precede the backup tip, so it
      always survives the cut. */
  function Tips(style: string, features: seq<string>): (r: seq<string>)
    ensures 3 <= |r| <= 4
    ensures BackupTip in r
    ensures style == "minimal" ==> r[0] == MinimalTip
    ensures style == "gaming" ==> r[0] == GamingTip
    ensures MinimalTip in r <==> style == "minimal"
    ensures GamingTip in r <==> style == "gaming"
    ensures EdgePanelTip in r <==> "edge-panels" in features
  {
    var styleTips := if style == "minimal" then [MinimalTip] else if style == "gaming" then [GamingTip] else [];
    var edge := if "edge-panels" in features then [EdgePanelTip] else [];
    var all := styleTips + edge + GeneralTips;
    var r := if |all| <= 4 then all else all[..4];
    assert r[|styleTips| + |edge|] == BackupTip;
    assert "edge-panels" in features ==> r[|styleTips|] == EdgePanelTip;
    assert forall t :: t in r ==> t in all;
    assert EdgePanelTip !in styleTips + GeneralTips;
    assert MinimalTip !in [GamingTip] + edge + GeneralTips;
    assert GamingTip !in [MinimalTip] + edge + GeneralTips;
    r
  }

  /** The modules one feature contributes: its table entry, or none. */
  function ModulesOf(feature: string): seq<GoodLockModule> {
    if feature in GoodLockModules then GoodLockModules[feature] else []
  }

  /** The `forEach` that gathers the Good Lock modules of the selected features. */
  function RelevantModules(features: seq<string>): (r: seq<GoodLockModule>)
    ensures forall m :: m in r ==> exists f :: f in features && m in ModulesOf(f)
  {
    if features == [] then []
    else ModulesOf(features[0]) + RelevantModules(features[1..])
  }

  /** Gathering is concatenation in feature order. */
  lemma {:induction false} RelevantModulesAppend(fs: seq<string>, gs: seq<string>)
    ensures RelevantModules(fs + gs) == RelevantModules(fs) + RelevantModules(gs)
  {
    if fs == [] {
      assert fs + gs == gs;
    } else {
      assert (fs + gs)[0] == fs[0];
      assert (fs + gs)[1..] == fs[1..] + gs;
      RelevantModulesAppend(fs[1..], gs);
    }
  }

  /** Every module of every selected feature is gathered. */
  lemma {:induction false} RelevantModulesComplete(features: seq<string>, f: string)
    requires f in features
    ensures forall m :: m in ModulesOf(f) ==> m in RelevantModules(features)
  {
    if features[0] != f {
      RelevantModulesComplete(features[1..], f);
    }
  }

  /** `f.replace('-', ' ').replace(/\b\w/g, l => l.toUpperCase())`. */
  function Label(f: string): (r: string)
    ensures |r| == |f|
  {
    Text.CapitalizeWords(Text.ReplaceFirst(f, "-", " "))
  }

  function Labels(fs: seq<string>): (r: seq<string>)
    ensures |r| == |fs|
    ensures forall i :: 0 <= i < |fs| ==> r[i] == Label(fs[i])
  {
    if fs == [] then [] else [Label(fs[0])] + Labels(fs[1..])
  }

  /** A two-word id joined by a dash reads as two capitalised words, as
      'edge-panels' reads 'Edge Panels'. */
  lemma {:induction false} LabelTwoWords(a: string, b: string)
    requires a != [] && Text.AllWordChars(a) && b != [] && Text.AllWordChars(b)
    ensures Label(a + "-" + b) == Text.UpperFirst(a) + " " + Text.UpperFirst(b)
  {
    assert '-' !in a by {
      forall i | 0 <= i < |a|
        ensures a[i] != '-'
      {
        assert Text.IsWordChar(a[i]);
      }
    }
    Text.ReplaceFirstSplit(a, "-", b, " ");
    Text.CapitalizeTwoWords(a, b);
  }

  /** The record `generateConfig` resolves with, without its Id and timestamp. */
  datatype CustomizationResult = CustomizationResult(
    model: string,
    oneUIVersion: string,
    features: seq<string>,
    style: string,
    configs: map<string, Config>,
    goodLockModules: seq<GoodLockModule>,
    installationSteps: seq<string>,
    tips: seq<string>)

  function GenerateConfig(model: string, oneUIVersion: string, features: seq<string>, style: string): (r: CustomizationResult)
    ensures r.model == model && r.oneUIVersion == oneUIVersion
    ensures r.features == Labels(features) && r.style == Label(style)
    ensures r.configs == GenerateConfigs(features, style)
    ensures forall k :: k in r.configs <==> k in ConfigFeatures && k in features
    ensures r.goodLockModules == RelevantModules(features)
    ensures r.installationSteps == InstallationSteps(features)
    ensures r.tips == Tips(style, features)
    ensures 4 <= |r.installationSteps| <= 6 && 3 <= |r.tips| <= 4
  {
    CustomizationResult(model, oneUIVersion, Labels(features), Label(style),
                        GenerateConfigs(features, style), RelevantModules(features),
                        InstallationSteps(features), Tips(style, features))
  }
}

=== FILE: customization_page.dfy ===
/** The customization generator page (`src/components/pages/CustomizationGenerator.jsx`):
    the configuration form, the feature toggles, the submit guard and the
    reset. The preview panel's own state is carried along untouched. */
module CustomizationPage {
  import opened Wrappers
  import Seqs
  import Forms
  import Customization

  datatype Form = Form(model: string, oneUIVersion: string, features: seq<string>, style: string)

  datatype Field = Model | OneUIVersion | Style

  function Get(f: Form, field: Field): string {
    match field
    case Model => f.model
    case OneUIVersion => f.oneUIVersion
    case Style => f.style
  }

  function SetField(f: Form, field: Field, value: string): (g: Form)
    ensures Get(g, field) == value && g.features == f.features
    ensures forall other :: other != field ==> Get(g, other) == Get(f, other)
  {
    match field
    case Model => f.(model := value)
    case OneUIVersion => f.(oneUIVersion := value)
    case Style => f.(style := value)
  }

  /** The preview panel's selections, which the configuration handlers never touch. */
  datatype Preview = Preview(selectedModel: string, wallpaper: string, theme: string, icons: string)

  datatype State = State(page: Forms.Page<Form, Customization.CustomizationResult>, preview: Preview)

  const EmptyForm := Form("", "", [], "")
  const MissingFields := "Please fill in all required fields and select at least one feature"
  const Failure := "Failed to generate customization config. Please try again."

  function Initial(): (s: State)
    ensures s.page == Forms.Blank(EmptyForm)
    ensures s.preview == Preview("", "", "", "")
  {
    State(Forms.Blank(EmptyForm), Preview("", "", "", ""))
  }

  /** `handleInputChange`: unlike the other pages it leaves the error alone. */
  function HandleInputChange(s: State, field: Field, value: string): (t: State)
    ensures Get(t.page.form, field) == value && t.page.form.features == s.page.form.features
    ensures forall other :: other != field ==> Get(t.page.form, other) == Get(s.page.form, other)
    ensures t.page.result == s.page.result && t.page.error == s.page.error
    ensures t.preview == s.preview
  {
    s.(page := s.page.(form := SetField(s.page.form, field, value)))
  }

  /** `toggleFeature`. */
  function ToggleFeature(s: State, id: string): (t: State)
    ensures t.page.form.features == Forms.Toggle(s.page.form.features, id)
    ensures forall field :: Get(t.page.form, field) == Get(s.page.form, field)
    ensures t.page.result == s.page.result && t.page.error == s.page.error && t.preview == s.preview
  {
    s.(page := s.page.(form := s.page.form.(features := Forms.Toggle(s.page.form.features, id))))
  }

  lemma {:induction false} ToggleFeatureTwice(s: State, id: string)
    requires id !in s.page.form.features
    ensures ToggleFeature(ToggleFeature(s, id), id) == s
  {
    Forms.ToggleTwice(s.page.form.features, id);
  }

  lemma {:induction false} ToggleFeatureNoDup(s: State, id: string)
    requires Seqs.NoDup(s.page.form.features)
    ensures Seqs.NoDup(ToggleFeature(s, id).page.form.features)
  {
    Forms.ToggleNoDup(s.page.form.features, id);
  }

  function Guard(f: Form): (m: Option<string>)
    ensures m.None? <==> (forall field :: Get(f, field) != "") && |f.features| > 0
    ensures m.Some? ==> m.value == MissingFields
  {
    if f.model == "" || f.oneUIVersion == "" || |f.features| == 0 || f.style == "" then
      assert Get(f, Model) == "" || Get(f, OneUIVersion) == "" || |f.features| == 0 || Get(f, Style) == "";
      Some(MissingFields)
    else None
  }

  function Generate(f: Form): Customization.CustomizationResult {
    Customization.GenerateConfig(f.model, f.oneUIVersion, f.features, f.style)
  }

  function Submit(s: State): (t: State)
    ensures t.page.form == s.page.form && t.preview == s.preview
    ensures Guard(s.page.form).Some? ==> t.page.result == s.page.result && t.page.error == MissingFields
    ensures Guard(s.page.form).None? ==> t.page.result == Some(Generate(s.page.form)) && t.page.error == ""
  {
    match Guard(s.page.form)
    case Some(m) => s.(page := Forms.Reject(s.page, m))
    case None => s.(page := Forms.Complete(s.page, Ok(Generate(s.page.form)), Failure))
  }

  /** `handleReset` clears the form, the result and the error, and leaves the
      preview panel as it was. */
  function Reset(s: State): (t: State)
    ensures t.page.form == EmptyForm && t.page.result.None? && t.page.error == ""
    ensures t.preview == s.preview
  {
    s.(page := Forms.Blank(EmptyForm))
  }
}

=== FILE: firmware.dfy ===
/** The firmware compatibility service (`src/services/api/firmwareService.js`):
    the region of a CSC code, the latest firmware for a model, a three-step
    risk ladder and the warnings that follow from it. */
module Firmware {
  import Text

  /** `cscRegions`. */
  const CscRegions: map<string, string> := map[
    "XAA" := "USA (Unlocked)",
    "DBT" := "Germany",
    "BTU" := "United Kingdom",
    "CPW" := "United Kingdom (Carphone Warehouse)",
    "TMB" := "USA (T-Mobile)",
    "VZW" := "USA (Verizon)",
    "ATT" := "USA (AT&T)",
    "SPR" := "USA (Sprint)",
    "KOO" := "South Korea",
    "TGY" := "Hong Kong"
  ]

  const UnknownRegion := "Unknown Region"

  /** `cscRegions[csc] || 'Unknown Region'`, an exact, case-sensitive lookup. */
  function Region(csc: string): string {
    if csc in CscRegions then CscRegions[csc] else UnknownRegion
  }

  /** A region other than the fallback is reported exactly for the tabled
      codes, because no table entry reads "Unknown Region". */
  lemma {:induction false} RegionKnownIff(csc: string)
    ensures Region(csc) != UnknownRegion <==> csc in CscRegions
    ensures csc in CscRegions ==> Region(csc) == CscRegions[csc]
  {
    assert UnknownRegion !in CscRegions.Values;
  }

  /** The lookup is case-sensitive: "xaa" is not "XAA". */
  lemma {:induction false} RegionCaseSensitive()
    ensures Region("XAA") == "USA (Unlocked)"
    ensures Region("xaa") == UnknownRegion
  {
    assert "xaa" != "XAA" by { assert "xaa"[0] != "XAA"[0]; }
  }

  const CarrierCscs := ["TMB", "VZW", "ATT", "SPR"]

  predicate IsUSA(csc: string) {
    csc == "XAA" || csc in CarrierCscs
  }

  /** The firmware prefix, chosen by the first model substring that matches. */
  function FirmwarePrefix(model: string): (p: string)
    ensures |p| == 4
    ensures Text.Includes(model, "S24") ==> p == "S928"
    ensures !Text.Includes(model, "S24") && Text.Includes(model, "S23") ==> p == "S918"
    ensures !Text.Includes(model, "S24") && !Text.Includes(model, "S23") && Text.Includes(model, "A54") ==> p == "A546"
    ensures !Text.Includes(model, "S24") && !Text.Includes(model, "S23") && !Text.Includes(model, "A54") ==> p == "G998"
  {
    if Text.Includes(model, "S24") then "S928"
    else if Text.Includes(model, "S23") then "S918"
    else if Text.Includes(model, "A54") then "A546"
    else "G998"
  }

  const BuildSuffix := "BXXU4CXL2"

  function LatestFirmware(model: string): (f: string)
    ensures |f| == 13 && f[..4] == FirmwarePrefix(model) && f[4..] == BuildSuffix
  {
    FirmwarePrefix(model) + BuildSuffix
  }

  lemma {:induction false} ExampleS24Ultra()
    ensures LatestFirmware("Galaxy S24 Ultra") == "S928BXXU4CXL2"
    ensures OneUIVersion("Galaxy S24 Ultra") == "6.1"
  {
    Text.IncludesAt("Galaxy S24 Ultra", "S24", 7);
  }

  /** Android and One UI versions: 14/6.1 for S24, 14/6.0 for S23, else 13/5.1. */
  function AndroidVersion(model: string): string {
    if Text.Includes(model, "S24") then "14"
    else if Text.Includes(model, "S23") then "14"
    else "13"
  }

  function OneUIVersion(model: string): string {
    if Text.Includes(model, "S24") then "6.1"
    else if Text.Includes(model, "S23") then "6.0"
    else "5.1"
  }

  /** The versions always belong to the same release line: One UI 6.x ships
      with Android 14 and One UI 5.1 with Android 13, and the S24 line is
      chosen before the S23 one, as for the firmware prefix. */
  lemma {:induction false} VersionsAgree(model: string)
    ensures Text.Includes(model, "S24") ==> AndroidVersion(model) == "14" && OneUIVersion(model) == "6.1"
    ensures !Text.Includes(model, "S24") && Text.Includes(model, "S23") ==>
              AndroidVersion(model) == "14" && OneUIVersion(model) == "6.0"
    ensures !Text.Includes(model, "S24") && !Text.Includes(model, "S23") ==>
              AndroidVersion(model) == "13" && OneUIVersion(model) == "5.1"
    ensures AndroidVersion(model) == "14" <==> OneUIVersion(model) != "5.1"
    ensures OneUIVersion(model) == "6.1" <==> FirmwarePrefix(model) == "S928"
    ensures OneUIVersion(model) == "6.0" <==> FirmwarePrefix(model) == "S918"
    ensures OneUIVersion(model) == "5.1" <==> FirmwarePrefix(model) == "A546" || FirmwarePrefix(model) == "G998"
  {
  }

  datatype Risk = Low | Medium | High

  function RiskName(r: Risk): string {
    match r
    case Low => "low"
    case Medium => "medium"
    case High => "high"
  }

  /** The risk ladder: a firmware string containing "AXA" is high risk
      whatever the CSC; otherwise a carrier CSC is medium; otherwise low.
      The empty firmware string, which JavaScript treats as false, contains
      no "AXA". */
  function RiskLevel(csc: string, currentFirmware: string): (r: Risk)
    ensures r == High <==> Text.Includes(currentFirmware, "AXA")
    ensures r == Medium <==> !Text.Includes(currentFirmware, "AXA") && csc in CarrierCscs
    ensures r == Low <==> !Text.Includes(currentFirmware, "AXA") && csc !in CarrierCscs
  {
    var r := if IsUSA(csc) && csc != "XAA" then Medium else Low;
    if currentFirmware != "" && Text.Includes(currentFirmware, "AXA") then High else r
  }

  lemma {:induction false} NoFirmwareNotHigh(csc: string)
    ensures RiskLevel(csc, "") != High
  {
    Text.NotIncludes("", "AXA");
  }

  function RiskDescription(r: Risk): string {
    match r
    case Low => "Standard update with minimal risk"
    case Medium => "Carrier-locked device may have delayed updates"
    case High => "Downgrading firmware may not be possible"
  }

  const DowngradeWarning := "This update may prevent downgrading to previous firmware"
  const CarrierWarning := "Carrier updates may be delayed by 1-2 weeks"
  const BackupWarning := "Always backup your data before updating"
  const ConnectionWarning := "Ensure stable internet connection during update"

  /** The downgrade warning first for high risk, the carrier warning for
      Verizon and T-Mobile, and always the backup and connection warnings last. */
  function Warnings(risk: Risk, csc: string): (w: seq<string>)
    ensures 2 <= |w| <= 4
    ensures w[0] == DowngradeWarning <==> risk == High
    ensures DowngradeWarning in w <==> risk == High
    ensures CarrierWarning in w <==> csc == "VZW" || csc == "TMB"
    ensures w[|w| - 2] == BackupWarning && w[|w| - 1] == ConnectionWarning
  {
    var downgrade := if risk == High then [DowngradeWarning] else [];
    var carrier := if csc == "VZW" || csc == "TMB" then [CarrierWarning] else [];
    var w := downgrade + carrier + [BackupWarning, ConnectionWarning];
    assert risk == High ==> w[0] == DowngradeWarning;
    assert (csc == "VZW" || csc == "TMB") ==> w[|downgrade|] == CarrierWarning;
    w
  }

  /** `!isUSA || csc !== 'XAA'`: only the unlocked US code reports an unlocked bootloader. */
  function BootloaderLocked(csc: string): (locked: bool)
    ensures !locked <==> csc == "XAA"
  {
    !IsUSA(csc) || csc != "XAA"
  }

  /** The record `checkCompatibility` resolves with, without its Id and timestamp. */
  datatype FirmwareData = FirmwareData(
    model: string,
    csc: string,
    region: string,
    latestFirmware: string,
    androidVersion: string,
    oneUIVersion: string,
    releaseDate: string,
    riskLevel: Risk,
    riskDescription: string,
    bootloaderLocked: bool,
    warnings: seq<string>)

  const ReleaseDate := "2024-01-15"

  /** `generateFirmwareData`. */
  function GenerateFirmwareData(model: string, csc: string, currentFirmware: string): (d: FirmwareData)
    ensures d.model == model && d.csc == csc && d.region == Region(csc)
    ensures d.releaseDate == ReleaseDate
    ensures d.latestFirmware == LatestFirmware(model)
    ensures d.androidVersion == AndroidVersion(model) && d.oneUIVersion == OneUIVersion(model)
    ensures d.riskLevel == RiskLevel(csc, currentFirmware)
    ensures d.riskLevel == High <==> Text.Includes(currentFirmware, "AXA")
    ensures d.riskDescription == RiskDescription(d.riskLevel)
    ensures d.warnings == Warnings(d.riskLevel, csc)
    ensures (DowngradeWarning in d.warnings) <==> d.riskLevel == High
    ensures (CarrierWarning in d.warnings) <==> csc == "VZW" || csc == "TMB"
    ensures !d.bootloaderLocked <==> csc == "XAA"
    ensures 2 <= |d.warnings| <= 4
  {
    var risk := RiskLevel(csc, currentFirmware);
    FirmwareData(model, csc, Region(csc), LatestFirmware(model), AndroidVersion(model), OneUIVersion(model),
                 ReleaseDate, risk, RiskDescription(risk), BootloaderLocked(csc), Warnings(risk, csc))
  }
}

=== FILE: firmware_page.dfy ===
/** The firmware checker page (`src/components/pages/FirmwareChecker.jsx`):
    its form, the submit guard and the risk badge. */
module FirmwarePage {
  import opened Wrappers
  import Forms
  import Firmware

  datatype Form = Form(model: string, csc: string, currentFirmware: string)

  datatype Field = Model | Csc | CurrentFirmware

  function Get(f: Form, field: Field): string {
    match field
    case Model => f.model
    case Csc => f.csc
    case CurrentFirmware => f.currentFirmware
  }

  function SetField(f: Form, field: Field, value: string): (g: Form)
    ensures Get(g, field) == value
    ensures forall other :: other != field ==> Get(g, other) == Get(f, other)
  {
    match field
    case Model => f.(model := value)
    case Csc => f.(csc := value)
    case CurrentFirmware => f.(currentFirmware := value)
  }

  type State = Forms.Page<Form, Firmware.FirmwareData>

  const EmptyForm := Form("", "", "")
  const MissingFields := "Please fill in all required fields"
  const Failure := "Failed to check firmware compatibility. Please try again."

  function Reset(): (s: State)
    ensures s.form == EmptyForm && s.result.None? && s.error == ""
  {
    Forms.Blank(EmptyForm)
  }

  function HandleInputChange(s: State, field: Field, value: string): (t: State)
    ensures Get(t.form, field) == value
    ensures forall other :: other != field ==> Get(t.form, other) == Get(s.form, other)
    ensures t.result == s.result && t.error == ""
  {
    s.(form := SetField(s.form, field, value), error := "")
  }

  /** Model and CSC are required; the current firmware is optional. */
  function Guard(f: Form): (m: Option<string>)
    ensures m.None? <==> f.model != "" && f.csc != ""
    ensures m.Some? ==> m.value == MissingFields
  {
    if f.model == "" || f.csc == "" then Some(MissingFields) else None
  }

  function Check(f: Form): Firmware.FirmwareData {
    Firmware.GenerateFirmwareData(f.model, f.csc, f.currentFirmware)
  }

  function Submit(s: State): (t: State)
    ensures t.form == s.form
    ensures Guard(s.form).Some? ==> t.result == s.result && t.error == MissingFields
    ensures Guard(s.form).None? ==> t.result == Some(Check(s.form)) && t.error == ""
  {
    match Guard(s.form)
    case Some(m) => Forms.Reject(s, m)
    case None => Forms.Complete(s, Ok(Check(s.form)), Failure)
  }

  /** Leaving the firmware field empty still gets a check, and never a high risk. */
  lemma {:induction false} EmptyFirmwareAccepted(model: string, csc: string)
    requires model != "" && csc != ""
    ensures Submit(Reset().(form := Form(model, csc, ""))).result.Some?
    ensures Submit(Reset().(form := Form(model, csc, ""))).result.value.riskLevel != Firmware.High
  {
    Firmware.NoFirmwareNotHigh(csc);
  }

  /** `getRiskColor`. */
  function RiskColor(risk: string): string {
    if risk == "low" then "success"
    else if risk == "medium" then "warning"
    else if risk == "high" then "error"
    else "default"
  }

  /** `getRiskIcon`. */
  function RiskIcon(risk: string): string {
    if risk == "low" then "CheckCircle"
    else if risk == "medium" then "AlertTriangle"
    else if risk == "high" then "XCircle"
    else "Info"
  }

  /** Every risk level the service reports has its own colour and icon;
      only other strings fall back to the defaults, and the icon falls back
      exactly when the colour does. */
  lemma {:induction false} RiskBadgeCovers(r: Firmware.Risk, other: string)
    ensures RiskColor(Firmware.RiskName(r)) != "default" && RiskIcon(Firmware.RiskName(r)) != "Info"
    ensures RiskColor(other) == "default" <==> RiskIcon(other) == "Info"
    ensures RiskColor(other) == "default" <==> other !in {"low", "medium", "high"}
  {
  }
}

=== FILE: forms.dfy ===
/** The state every tool page keeps, and the steps its handlers share: the
    form fields, the last result (`null` until one arrives, here `None`) and
    the error message (`''` when there is none). */
module Forms {
  import opened Wrappers
  import Seqs

  datatype Page<F, R> = Page(form: F, result: Option<R>, error: string)

  /** The state a page starts in, and the one `handleReset` restores. */
  function Blank<F, R>(form: F): (p: Page<F, R>)
    ensures p.form == form && p.result.None? && p.error == ""
  {
    Page(form, None, "")
  }

  /** The `try`/`catch` around a service call: a result replaces the previous
      one and clears the error; a failure shows `failure` and keeps the
      previous result on screen. */
  function Complete<F, R>(p: Page<F, R>, outcome: Result<R>, failure: string): (q: Page<F, R>)
    ensures q.form == p.form
    ensures outcome.Ok? ==> q.result == Some(outcome.value) && q.error == ""
    ensures outcome.Err? ==> q.result == p.result && q.error == failure
  {
    match outcome
    case Ok(r) => p.(result := Some(r), error := "")
    case Err(_) => p.(error := failure)
  }

  /** A rejected submission: only the error changes. */
  function Reject<F, R>(p: Page<F, R>, message: string): (q: Page<F, R>)
    ensures q.form == p.form && q.result == p.result && q.error == message
  {
    p.(error := message)
  }

  function Without(id: string): string -> bool {
    (x: string) => x != id
  }

  /** The multi-select toggle: `includes(id) ? filter(x => x !== id) : [...xs, id]`. */
  function Toggle(xs: seq<string>, id: string): (r: seq<string>)
    ensures id !in xs ==> r == xs + [id]
    ensures id in xs ==> id !in r
    ensures id in xs ==> forall x :: x in r <==> x in xs && x != id
    ensures id in xs ==> Seqs.IsSubsequence(r, xs)
  {
    if id in xs then
      Seqs.FilterSpec(xs, Without(id));
      Seqs.Filter(xs, Without(id))
    else xs + [id]
  }

  /** Toggling an absent id on and off again restores the list. */
  lemma {:induction false} ToggleTwice(xs: seq<string>, id: string)
    requires id !in xs
    ensures Toggle(Toggle(xs, id), id) == xs
  {
    assert id in xs + [id];
    Seqs.FilterAppend(xs, [id], Without(id));
    Seqs.FilterAll(xs, Without(id));
    assert Seqs.Filter([id], Without(id)) == [];
  }

  /** A list without repetitions keeps that property under toggling. */
  lemma {:induction false} ToggleNoDup(xs: seq<string>, id: string)
    requires Seqs.NoDup(xs)
    ensures Seqs.NoDup(Toggle(xs, id))
  {
    if id in xs {
      Seqs.FilterNoDup(xs, Without(id));
    } else {
      var r := xs + [id];
      forall i, j | 0 <= i < j < |r|
        ensures r[i] != r[j]
      {
        if j == |xs| {
          assert r[i] == xs[i];
        } else {
          assert r[i] == xs[i] && r[j] == xs[j];
        }
      }
    }
  }

  /** In a list without repetitions, toggling a present id removes exactly
      that one element and keeps the others in order. */
  lemma {:induction false} ToggleRemovesOne(xs: seq<string>, i: nat)
    requires Seqs.NoDup(xs) && i < |xs|
    ensures Toggle(xs, xs[i]) == xs[..i] + xs[i + 1..]
  {
    var id := xs[i];
    assert xs == xs[..i] + [id] + xs[i + 1..];
    assert id !in xs[..i] by {
      forall k | 0 <= k < i
        ensures xs[..i][k] != id
      {
        assert xs[..i][k] == xs[k];
      }
    }
    var tail := xs[i + 1..];
    assert id !in tail by {
      forall k | 0 <= k < |tail|
        ensures tail[k] != id
      {
        assert tail[k] == xs[i + 1 + k];
      }
    }
    Seqs.FilterAppend(xs[..i] + [id], xs[i + 1..], Without(id));
    Seqs.FilterAppend(xs[..i], [id], Without(id));
    Seqs.FilterAll(xs[..i], Without(id));
    Seqs.FilterAll(xs[i + 1..], Without(id));
    assert Seqs.Filter([id], Without(id)) == [];
  }
}

=== FILE: header.dfy ===
/** The active-link test of the site header (`src/components/organisms/Header.jsx`). */
module Header {
  import Text

  datatype NavItem = NavItem(name: string, path: string)

  /** `navigation`. */
  const Navigation: seq<NavItem> := [
    NavItem("Home", "/"),
    NavItem("Trade-In Tools", "/trade-in-estimator"),
    NavItem("Technical Tools", "/battery-health-checker"),
    NavItem("Customization", "/customization-generator"),
    NavItem("Updates", "/update-tracker")
  ]

  /** `isActive`: the home path only on an exact match, every other path as
      a plain prefix of the location. */
  predicate IsActive(pathname: string, path: string) {
    if path == "/" then pathname == "/" else Text.StartsWith(pathname, path)
  }

  /** Apart from Home, a navigation path is active exactly on the locations
      that extend it. */
  lemma {:induction false} ActiveIffExtends(pathname: string, path: string)
    requires path != "/"
    ensures IsActive(pathname, path) <==> exists rest :: pathname == path + rest
  {
    if IsActive(pathname, path) {
      var rest := pathname[|path|..];
      assert pathname == path + rest;
    }
    if exists rest :: pathname == path + rest {
      var rest :| pathname == path + rest;
      assert pathname[..|path|] == path;
    }
  }

  /** No location highlights two navigation entries: the entries other than
      Home already differ in their second character. */
  lemma {:induction false} AtMostOneActive(pathname: string, i: nat, j: nat)
    requires i < |Navigation| && j < |Navigation|
    requires IsActive(pathname, Navigation[i].path) && IsActive(pathname, Navigation[j].path)
    ensures i == j
  {
    var pi, pj := Navigation[i].path, Navigation[j].path;
    assert i == 0 || |pi| > 1;
    assert j == 0 || |pj| > 1;
    if i != 0 && j != 0 {
      assert pathname[1] == pathname[..|pi|][1] == pi[1];
      assert pathname[1] == pathname[..|pj|][1] == pj[1];
      assert Navigation[1].path[1] == 't' && Navigation[2].path[1] == 'b';
      assert Navigation[3].path[1] == 'c' && Navigation[4].path[1] == 'u';
    }
  }

  /** Every navigation entry is active on its own path. */
  lemma {:induction false} ActiveOnOwnPath(i: nat)
    requires i < |Navigation|
    ensures IsActive(Navigation[i].path, Navigation[i].path)
  {
  }

  /** Home is active on "/" and on nothing else. */
  lemma {:induction false} HomeExact(pathname: string)
    ensures IsActive(pathname, "/") <==> pathname == "/"
  {
  }

  /** On "/" only the Home entry is active: every other path is longer than
      the location. */
  lemma {:induction false} OnlyHomeOnRoot(i: nat)
    requires i < |Navigation|
    ensures IsActive("/", Navigation[i].path) <==> i == 0
  {
    assert i == 0 || |Navigation[i].path| > 1;
  }

  /** The prefix test has no segment boundary: a location that merely
      extends a navigation path activates it. */
  lemma {:induction false} NoSegmentBoundary()
    ensures IsActive("/update-trackerX", "/update-tracker")
  {
    assert "/update-trackerX"[..|"/update-tracker"|] == "/update-tracker";
  }

  /** A nested location activates its section. */
  lemma {:induction false} NestedPathActive(suffix: string)
    ensures IsActive("/update-tracker" + suffix, "/update-tracker")
  {
    assert ("/update-tracker" + suffix)[..|"/update-tracker"|] == "/update-tracker";
  }
}

=== FILE: home.dfy ===
/** The tool filter of the home page (`src/components/pages/Home.jsx`): the
    seven tools, searched by title and description and narrowed by category. */
module Home {
  import Text
  import Seqs

  datatype Tool = Tool(id: nat, title: string, description: string, path: string, category: string)

  /** `tools`, without the icon and gradient fields that only style the cards. */
  const Tools: seq<Tool> := [
    Tool(1, "Trade-In Value Estimator",
         "Get AI-powered trade-in value estimates for your Samsung device with personalized resale tips.",
         "/trade-in-estimator", "trade-in"),
    Tool(2, "Battery Health Checker",
         "Analyze your Samsung battery health and get replacement recommendations.",
         "/battery-health-checker", "technical"),
    Tool(3, "Phone Comparison Tool",
         "Compare Samsung models side-by-side with AI-generated insights and recommendations.",
         "/phone-comparison", "comparison"),
    Tool(4, "Upgrade Advisor",
         "Get personalized upgrade recommendations based on your priorities and usage patterns.",
         "/upgrade-advisor", "trade-in"),
    Tool(5, "Firmware Compatibility Checker",
         "Check firmware compatibility and get update risk assessments for your device.",
         "/firmware-checker", "technical"),
    Tool(6, "One UI Customization Generator",
         "Generate custom One UI configurations with Good Lock modules and themes.",
         "/customization-generator", "customization"),
    Tool(7, "Update Tracker",
         "Track the latest One UI and Android updates for your Samsung device.",
         "/update-tracker", "technical")
  ]

  predicate MatchesSearch(t: Tool, term: string) {
    Text.Includes(Text.Lower(t.title), Text.Lower(term))
    || Text.Includes(Text.Lower(t.description), Text.Lower(term))
  }

  predicate MatchesCategory(t: Tool, category: string) {
    category == "all" || t.category == category
  }

  function InCategory(category: string): Tool -> bool {
    (t: Tool) => MatchesCategory(t, category)
  }

  function Visible(term: string, category: string): Tool -> bool {
    (t: Tool) => MatchesSearch(t, term) && MatchesCategory(t, category)
  }

  /** `filteredTools`. Unlike the update tracker, the search runs even for
      the empty term, which every tool matches. */
  function FilteredTools(term: string, category: string): seq<Tool> {
    Seqs.Filter(Tools, Visible(term, category))
  }

  /** The visible tools keep their table order, and a tool is visible
      exactly when it matches both the search and the category. */
  lemma {:induction false} FilteredToolsSpec(term: string, category: string)
    ensures Seqs.IsSubsequence(FilteredTools(term, category), Tools)
    ensures forall t :: t in FilteredTools(term, category) <==>
              t in Tools && MatchesSearch(t, term) && MatchesCategory(t, category)
  {
    Seqs.FilterSpec(Tools, Visible(term, category));
  }

  lemma {:induction false} EmptySearchMatches(t: Tool)
    ensures MatchesSearch(t, "")
  {
    Text.LowerEmpty();
    Text.IncludesEmpty(Text.Lower(t.title));
  }

  /** With no search term the category alone decides. */
  lemma {:induction false} EmptySearchByCategory(category: string)
    ensures FilteredTools("", category) ==
            Seqs.Filter(Tools, InCategory(category))
  {
    forall t: Tool
      ensures Visible("", category)(t) == MatchesCategory(t, category)
    {
      EmptySearchMatches(t);
    }
    Seqs.FilterSame(Tools, Visible("", category), InCategory(category));
  }

  /** With no search term, 'all' shows every tool. */
  lemma {:induction false} EmptySearchAllTools()
    ensures FilteredTools("", "all") == Tools
  {
    EmptySearchByCategory("all");
    Seqs.FilterAll(Tools, InCategory("all"));
  }

  /** With no search term, the technical category shows the battery,
      firmware and update tools, in that order. */
  lemma {:induction false} TechnicalTools()
    ensures FilteredTools("", "technical") == [Tools[1], Tools[4], Tools[6]]
  {
    EmptySearchByCategory("technical");
    TechnicalByCategory();
  }

  lemma {:induction false} TechnicalByCategory()
    ensures Seqs.Filter(Tools, InCategory("technical")) == [Tools[1], Tools[4], Tools[6]]
  {
    TechnicalTail();
    var p := InCategory("technical");
    assert Seqs.Filter(Tools[3..], p) == [Tools[4], Tools[6]];
    assert Seqs.Filter(Tools[2..], p) == [Tools[4], Tools[6]];
    assert Seqs.Filter(Tools[1..], p) == [Tools[1], Tools[4], Tools[6]];
    assert Tools[0..] == Tools;
  }

  lemma {:induction false} TechnicalTail()
    ensures Seqs.Filter(Tools[4..], InCategory("technical")) == [Tools[4], Tools[6]]
  {
    var p := InCategory("technical");
    assert Seqs.Filter(Tools[7..], p) == [];
    assert Seqs.Filter(Tools[6..], p) == [Tools[6]];
    assert Seqs.Filter(Tools[5..], p) == [Tools[6]];
  }
}

=== FILE: phones.dfy ===
/** The phone model lookups (`src/services/api/phoneService.js`). The seed
    list of models is not part of this model; every lookup takes it as a
    parameter. */
module Phones {
  import opened Wrappers
  import Text
  import Seqs

  /** The fields of a model's `specs` that the comparison reads. */
  datatype Specs = Specs(
    display: string,
    displayScore: int,
    camera: string,
    cameraScore: int,
    processor: string,
    battery: string,
    storage: string,
    storageScore: int)

  datatype PhoneModel = PhoneModel(id: int, name: string, releaseYear: int, specs: Specs)

  const NotFound := "Phone model not found"

  /** `getAll`: a copy of the seed list. */
  function GetAll(models: seq<PhoneModel>): (r: seq<PhoneModel>)
    ensures |r| == |models| && forall i :: 0 <= i < |r| ==> r[i] == models[i]
  {
    models
  }

  function HasName(name: string): PhoneModel -> bool {
    (m: PhoneModel) => m.name == name
  }

  /** `getByName`: the first model whose name is exactly `name`. */
  function GetByName(models: seq<PhoneModel>, name: string): (r: Result<PhoneModel>)
    ensures r.Ok? <==> exists i :: 0 <= i < |models| && models[i].name == name
    ensures r.Ok? ==> exists i :: 0 <= i < |models| && models[i] == r.value
                                 && (forall j :: 0 <= j < i ==> models[j].name != name)
    ensures r.Ok? ==> r.value.name == name
    ensures r.Err? ==> r.error == NotFound
  {
    match Seqs.FindIndex(models, HasName(name))
    case None => Err(NotFound)
    case Some(i) => Ok(models[i])
  }

  function HasId(id: int): PhoneModel -> bool {
    (m: PhoneModel) => m.id == id
  }

  /** `getById`: the first model whose Id is `parseInt(id)`. An id that does
      not parse is `NaN`, which equals no Id. */
  function GetById(models: seq<PhoneModel>, id: string): (r: Result<PhoneModel>)
    ensures r.Ok? <==> Text.ParseInt(id).Some? &&
                       exists i :: 0 <= i < |models| && models[i].id == Text.ParseInt(id).value
    ensures r.Ok? ==> exists i :: 0 <= i < |models| && models[i] == r.value
                                 && (forall j :: 0 <= j < i ==> models[j].id != r.value.id)
    ensures r.Ok? ==> r.value.id == Text.ParseInt(id).value
    ensures r.Err? ==> r.error == NotFound
  {
    match Text.ParseInt(id)
    case None => Err(NotFound)
    case Some(n) =>
      match Seqs.FindIndex(models, HasId(n))
      case None => Err(NotFound)
      case Some(i) => Ok(models[i])
  }

  /** Looking a model up by its own name finds a model of that name, and the
      first one when names repeat; names that are unique find exactly that model. */
  lemma {:induction false} GetByNameUnique(models: seq<PhoneModel>, i: nat)
    requires i < |models|
    requires forall j :: 0 <= j < |models| && j != i ==> models[j].name != models[i].name
    ensures GetByName(models, models[i].name) == Ok(models[i])
  {
  }

  /** The id printed in decimal finds the model with that Id. */
  lemma {:induction false} GetByIdOfPrinted(models: seq<PhoneModel>, i: nat)
    requires i < |models|
    requires forall j :: 0 <= j < |models| && j != i ==> models[j].id != models[i].id
    ensures GetById(models, Text.IntToString(models[i].id)) == Ok(models[i])
  {
    Text.ParseIntOfIntToString(models[i].id);
  }
}

=== FILE: seqs.dfy ===
/** The two array operations the services and pages build on:
    `Array.prototype.filter` and a stable sort by a numeric key, largest first
    (`sort((a, b) => key(b) - key(a))`; the JavaScript sort has been stable
    since ES2019). */
module Seqs {
  import opened Wrappers

  /** `xs.filter(p)`. */
  function Filter<T>(xs: seq<T>, p: T -> bool): (r: seq<T>)
    ensures |r| <= |xs|
  {
    if xs == [] then []
    else if p(xs[0]) then [xs[0]] + Filter(xs[1..], p)
    else Filter(xs[1..], p)
  }

  /** `a` is `b` with some elements left out and the rest in their order. */
  predicate IsSubsequence<T(==)>(a: seq<T>, b: seq<T>)
    decreases |b|
  {
    if a == [] then true
    else if b == [] then false
    else if a[0] == b[0] then IsSubsequence(a[1..], b[1..])
    else IsSubsequence(a, b[1..])
  }

  /** The filter keeps exactly the elements that satisfy `p`, in their order. */
  lemma {:induction false} FilterSpec<T>(xs: seq<T>, p: T -> bool)
    ensures IsSubsequence(Filter(xs, p), xs)
    ensures forall x :: x in Filter(xs, p) <==> x in xs && p(x)
    ensures forall x :: multiset(Filter(xs, p))[x] == if p(x) then multiset(xs)[x] else 0
  {
    if xs != [] {
      FilterSpec(xs[1..], p);
      assert xs == [xs[0]] + xs[1..];
      assert multiset(xs) == multiset{xs[0]} + multiset(xs[1..]);
      if p(xs[0]) {
        assert multiset(Filter(xs, p)) == multiset{xs[0]} + multiset(Filter(xs[1..], p));
      }
    }
  }

  /** The first element the filter keeps is the first element of `xs` that
      satisfies `p`. */
  lemma {:induction false} FilterHead<T>(xs: seq<T>, p: T -> bool)
    requires Filter(xs, p) != []
    ensures FindIndex(xs, p).Some?
    ensures Filter(xs, p)[0] == xs[FindIndex(xs, p).value]
  {
    if !p(xs[0]) {
      FilterHead(xs[1..], p);
    }
  }

  lemma {:induction false} FilterAppend<T>(xs: seq<T>, ys: seq<T>, p: T -> bool)
    ensures Filter(xs + ys, p) == Filter(xs, p) + Filter(ys, p)
  {
    if xs != [] {
      assert (xs + ys)[0] == xs[0];
      assert (xs + ys)[1..] == xs[1..] + ys;
      FilterAppend(xs[1..], ys, p);
    } else {
      assert xs + ys == ys;
    }
  }

  /** Two filters in a row keep what one filter by the conjunction keeps, so
      the order in which filters are applied does not matter. */
  lemma {:induction false} FilterFilter<T>(xs: seq<T>, p: T -> bool, q: T -> bool, pq: T -> bool)
    requires forall x :: pq(x) == (p(x) && q(x))
    ensures Filter(Filter(xs, p), q) == Filter(xs, pq)
  {
    if xs != [] {
      FilterFilter(xs[1..], p, q, pq);
    }
  }

  /** Filters by predicates that agree everywhere keep the same elements. */
  lemma {:induction false} FilterSame<T>(xs: seq<T>, p: T -> bool, q: T -> bool)
    requires forall x :: p(x) == q(x)
    ensures Filter(xs, p) == Filter(xs, q)
  {
    if xs != [] {
      FilterSame(xs[1..], p, q);
    }
  }

  /** A filter whose predicate holds everywhere on `xs` returns `xs`. */
  lemma {:induction false} FilterAll<T>(xs: seq<T>, p: T -> bool)
    requires forall i :: 0 <= i < |xs| ==> p(xs[i])
    ensures Filter(xs, p) == xs
  {
    if xs != [] {
      FilterAll(xs[1..], p);
    }
  }

  /** A filter that rejects exactly the element at `k` returns the rest. */
  lemma {:induction false} FilterDropsOne<T>(xs: seq<T>, p: T -> bool, k: nat)
    requires k < |xs| && !p(xs[k])
    requires forall i :: 0 <= i < |xs| && i != k ==> p(xs[i])
    ensures Filter(xs, p) == xs[..k] + xs[k + 1..]
  {
    var before, after := xs[..k], xs[k + 1..];
    var mid := [xs[k]] + after;
    assert xs == before + mid;
    FilterAppend(before, mid, p);
    assert mid[0] == xs[k] && mid[1..] == after;
    assert Filter(mid, p) == Filter(after, p);
    assert forall i :: 0 <= i < |before| ==> before[i] == xs[i];
    FilterAll(before, p);
    assert forall i :: 0 <= i < |after| ==> after[i] == xs[k + 1 + i];
    FilterAll(after, p);
  }

  /** Non-increasing by `key`. */
  predicate SortedDesc<T>(s: seq<T>, key: T -> int) {
    forall i, j :: 0 <= i < j < |s| ==> key(s[i]) >= key(s[j])
  }

  /** Inserts `x` before the first element whose key is not greater than its own. */
  function InsertDesc<T>(x: T, s: seq<T>, key: T -> int): (r: seq<T>)
    ensures |r| == |s| + 1
  {
    if s == [] || key(x) >= key(s[0]) then [x] + s
    else [s[0]] + InsertDesc(x, s[1..], key)
  }

  /** Stable sort, largest key first. */
  function SortDesc<T>(s: seq<T>, key: T -> int): (r: seq<T>)
    ensures |r| == |s|
  {
    if s == [] then [] else InsertDesc(s[0], SortDesc(s[1..], key), key)
  }

  lemma {:induction false} InsertDescSpec<T>(x: T, s: seq<T>, key: T -> int)
    requires SortedDesc(s, key)
    ensures multiset(InsertDesc(x, s, key)) == multiset(s) + multiset{x}
    ensures SortedDesc(InsertDesc(x, s, key), key)
    ensures InsertDesc(x, s, key)[0] == x || (s != [] && InsertDesc(x, s, key)[0] == s[0])
  {
    if s != [] && key(x) < key(s[0]) {
      var rest := InsertDesc(x, s[1..], key);
      InsertDescSpec(x, s[1..], key);
      assert s == [s[0]] + s[1..];
      var r := [s[0]] + rest;
      forall i, j | 0 <= i < j < |r|
        ensures key(r[i]) >= key(r[j])
      {
        if i == 0 {
          assert r[j] in multiset(rest);
          assert r[j] in multiset(s[1..]) || r[j] == x;
        }
      }
    }
  }

  /** The sort returns a permutation of its input, ordered largest key first. */
  lemma {:induction false} SortDescSpec<T>(s: seq<T>, key: T -> int)
    ensures multiset(SortDesc(s, key)) == multiset(s)
    ensures SortedDesc(SortDesc(s, key), key)
  {
    if s != [] {
      SortDescSpec(s[1..], key);
      InsertDescSpec(s[0], SortDesc(s[1..], key), key);
      assert s == [s[0]] + s[1..];
    }
  }

  /** The elements whose key is `k`. */
  function KeyIs<T>(key: T -> int, k: int): T -> bool {
    (x: T) => key(x) == k
  }

  /** Inserting `x` never moves it past an element with the same key. */
  lemma {:induction false} FilterInsertDesc<T>(x: T, t: seq<T>, key: T -> int, k: int)
    ensures Filter(InsertDesc(x, t, key), KeyIs(key, k))
            == (if key(x) == k then [x] else []) + Filter(t, KeyIs(key, k))
  {
    var p := KeyIs(key, k);
    if t == [] || key(x) >= key(t[0]) {
      FilterAppend([x], t, p);
    } else {
      FilterInsertDesc(x, t[1..], key, k);
      assert InsertDesc(x, t, key) == [t[0]] + InsertDesc(x, t[1..], key);
      if p(t[0]) {
        assert key(x) != k;
      }
    }
  }

  /** The sort is stable: the elements sharing any one key keep the order
      they had in the input. */
  lemma {:induction false} SortDescStable<T>(s: seq<T>, key: T -> int, k: int)
    ensures Filter(SortDesc(s, key), KeyIs(key, k)) == Filter(s, KeyIs(key, k))
  {
    if s != [] {
      SortDescStable(s[1..], key, k);
      FilterInsertDesc(s[0], SortDesc(s[1..], key), key, k);
    }
  }

  /** The first element of the sorted list is the first element of the input
      that carries its key, which is the largest key. */
  lemma {:induction false} SortDescHead<T>(s: seq<T>, key: T -> int)
    requires s != []
    ensures var r := SortDesc(s, key);
      && FindIndex(s, KeyIs(key, key(r[0]))).Some?
      && r[0] == s[FindIndex(s, KeyIs(key, key(r[0]))).value]
      && forall x :: x in s ==> key(x) <= key(r[0])
  {
    var r := SortDesc(s, key);
    var p := KeyIs(key, key(r[0]));
    SortDescSpec(s, key);
    HeadIsMax(r, key);
    forall x | x in s
      ensures x in r
    {
      assert x in multiset(s);
    }
    assert Filter(r, p)[0] == r[0];
    SortDescStable(s, key, key(r[0]));
    FilterHead(s, p);
  }

  /** The first element of a list sorted largest first has the largest key. */
  lemma {:induction false} HeadIsMax<T>(s: seq<T>, key: T -> int)
    requires SortedDesc(s, key) && s != []
    ensures forall x :: x in s ==> key(x) <= key(s[0])
  {
    forall x | x in s
      ensures key(x) <= key(s[0])
    {
      var i :| 0 <= i < |s| && s[i] == x;
      if i > 0 {
        assert key(s[0]) >= key(s[i]);
      }
    }
  }

  /** `xs.findIndex(p)`, with `None` for the -1 of no match: the position of
      the first element that satisfies `p`. */
  function FindIndex<T>(xs: seq<T>, p: T -> bool): (r: Option<nat>)
    ensures r.Some? ==> r.value < |xs| && p(xs[r.value])
    ensures r.Some? ==> forall j :: 0 <= j < r.value ==> !p(xs[j])
    ensures r.None? <==> forall i :: 0 <= i < |xs| ==> !p(xs[i])
  {
    if xs == [] then None
    else if p(xs[0]) then Some(0)
    else match FindIndex(xs[1..], p)
      case None => None
      case Some(k) => Some(k + 1)
  }

  /** No element occurs twice. */
  predicate NoDup<T(==)>(xs: seq<T>) {
    forall i, j :: 0 <= i < j < |xs| ==> xs[i] != xs[j]
  }

  /** Filtering never introduces a repetition. */
  lemma {:induction false} FilterNoDup<T>(xs: seq<T>, p: T -> bool)
    requires NoDup(xs)
    ensures NoDup(Filter(xs, p))
  {
    if xs != [] {
      assert NoDup(xs[1..]) by {
        forall i, j | 0 <= i < j < |xs[1..]|
          ensures xs[1..][i] != xs[1..][j]
        {
          assert xs[1..][i] == xs[i + 1] && xs[1..][j] == xs[j + 1];
        }
      }
      FilterNoDup(xs[1..], p);
      FilterSpec(xs[1..], p);
      if p(xs[0]) {
        var rest := Filter(xs[1..], p);
        assert xs[0] !in xs[1..] by {
          forall k | 0 <= k < |xs[1..]|
            ensures xs[1..][k] != xs[0]
          {
            assert xs[1..][k] == xs[k + 1];
          }
        }
        assert xs[0] !in rest;
        var r := [xs[0]] + rest;
        forall i, j | 0 <= i < j < |r|
          ensures r[i] != r[j]
        {
          if i == 0 {
            assert r[j] == rest[j - 1];
            assert rest[j - 1] in rest;
          } else {
            assert r[i] == rest[i - 1] && r[j] == rest[j - 1];
          }
        }
      }
    }
  }
}

=== FILE: text.dfy ===
/** The JavaScript string operations the application relies on, over
    `string = seq<char>`: `includes`, `startsWith`, `replace` with a string
    pattern (first occurrence only), ASCII `toLowerCase`/`toUpperCase`, the
    `/\b\w/g` word-start capitalisation, `join`, `parseInt` (radix 10, or 16
    after a `0x` prefix) and number-to-string conversion. */
module Text {
  import opened Wrappers

  // ---------------------------------------------------------------------------
  // Substring search
  // ---------------------------------------------------------------------------

  /** `pat` occurs in `s` starting at index `i`. */
  ghost predicate OccursAt(s: string, pat: string, i: int) {
    0 <= i && i + |pat| <= |s| && s[i..i + |pat|] == pat
  }

  lemma {:induction false} OccursShift(s: string, pat: string)
    requires |s| > 0
    ensures forall j :: 1 <= j ==> (OccursAt(s, pat, j) <==> OccursAt(s[1..], pat, j - 1))
  {
    forall j | 1 <= j
      ensures OccursAt(s, pat, j) <==> OccursAt(s[1..], pat, j - 1)
    {
      if j + |pat| <= |s| {
        assert s[1..][j - 1..j - 1 + |pat|] == s[j..j + |pat|];
      }
    }
  }

  /** `s.indexOf(pat)`: the first position where `pat` occurs, if any. */
  function IndexOf(s: string, pat: string): (r: Option<nat>)
    ensures r.Some? ==> OccursAt(s, pat, r.value)
    ensures r.Some? ==> forall j :: 0 <= j < r.value ==> !OccursAt(s, pat, j)
    ensures r.None? ==> forall j :: !OccursAt(s, pat, j)
    decreases |s|
  {
    if |pat| > |s| then None
    else if s[..|pat|] == pat then Some(0)
    else
      OccursShift(s, pat);
      match IndexOf(s[1..], pat)
      case None => None
      case Some(k) => Some(k + 1)
  }

  /** `s.includes(pat)`. */
  predicate Includes(s: string, pat: string) {
    IndexOf(s, pat).Some?
  }

  lemma {:induction false} IncludesIff(s: string, pat: string)
    ensures Includes(s, pat) <==> exists i :: OccursAt(s, pat, i)
  {
  }

  lemma {:induction false} IncludesEmpty(s: string)
    ensures Includes(s, "")
  {
    assert OccursAt(s, "", 0);
  }

  /** A string that occurs inside a piece of `s` also occurs in `s`. */
  lemma {:induction false} IncludesInfix(s: string, a: nat, b: nat, pat: string)
    requires a <= b <= |s|
    requires Includes(s[a..b], pat)
    ensures Includes(s, pat)
  {
    var t := s[a..b];
    var k := IndexOf(t, pat).value;
    assert OccursAt(t, pat, k);
    assert k + |pat| <= |t|;
    forall j | 0 <= j < |pat|
      ensures s[a + k + j] == pat[j]
    {
      assert t[k..k + |pat|][j] == t[k + j];
      assert t[k + j] == s[a + k + j];
    }
    assert s[a + k..a + k + |pat|] == pat;
    assert OccursAt(s, pat, a + k);
  }

  /** `pat` is included once it occurs at some position. */
  lemma {:induction false} IncludesAt(s: string, pat: string, i: nat)
    requires i + |pat| <= |s| && s[i..i + |pat|] == pat
    ensures Includes(s, pat)
  {
    assert OccursAt(s, pat, i);
  }

  /** `IndexOf` finds `pat` at `i` when it occurs there and its first
      character does not occur earlier. */
  lemma {:induction false} IndexOfAt(s: string, pat: string, i: nat)
    requires pat != [] && i + |pat| <= |s| && s[i..i + |pat|] == pat
    requires pat[0] !in s[..i]
    ensures IndexOf(s, pat) == Some(i)
  {
    assert OccursAt(s, pat, i);
    forall j | 0 <= j < i
      ensures !OccursAt(s, pat, j)
    {
      assert s[j] in s[..i];
    }
  }

  /** `pat` does not occur when its first character does not. */
  lemma {:induction false} NotIncludes(s: string, pat: string)
    requires pat != [] && pat[0] !in s
    ensures !Includes(s, pat)
  {
  }

  /** `s.startsWith(p)`. */
  predicate StartsWith(s: string, p: string) {
    |p| <= |s| && s[..|p|] == p
  }

  /** `s.replace(pat, rep)` with a string pattern: only the first occurrence
      is replaced, and `s` is returned unchanged when `pat` does not occur. */
  function ReplaceFirst(s: string, pat: string, rep: string): (r: string)
    ensures !Includes(s, pat) ==> r == s
    ensures Includes(s, pat) ==>
              var i := IndexOf(s, pat).value;
              r == s[..i] + rep + s[i + |pat|..]
  {
    match IndexOf(s, pat)
    case None => s
    case Some(i) => s[..i] + rep + s[i + |pat|..]
  }

  /** Replacing in `a + pat + b`, where the first character of `pat` does
      not occur in `a`, replaces that occurrence of `pat`. */
  lemma {:induction false} ReplaceFirstSplit(a: string, pat: string, b: string, rep: string)
    requires pat != [] && pat[0] !in a
    ensures ReplaceFirst(a + pat + b, pat, rep) == a + rep + b
  {
    var s := a + pat + b;
    assert s[..|a|] == a;
    assert s[|a|..|a| + |pat|] == pat;
    assert s[|a| + |pat|..] == b;
    IndexOfAt(s, pat, |a|);
  }

  /** Replacing in a string that does not contain the first character of
      `pat` changes nothing. */
  lemma {:induction false} ReplaceFirstAbsent(s: string, pat: string, rep: string)
    requires pat != [] && pat[0] !in s
    ensures ReplaceFirst(s, pat, rep) == s
  {
    NotIncludes(s, pat);
  }

  // ---------------------------------------------------------------------------
  // ASCII case mapping and word capitalisation
  // ---------------------------------------------------------------------------

  function LowerChar(c: char): (r: char)
    ensures 'A' <= c <= 'Z' ==> 'a' <= r <= 'z'
    ensures !('A' <= c <= 'Z') ==> r == c
  {
    if 'A' <= c <= 'Z' then (c as int + 32) as char else c
  }

  function UpperChar(c: char): (r: char)
    ensures 'a' <= c <= 'z' ==> 'A' <= r <= 'Z'
    ensures !('a' <= c <= 'z') ==> r == c
  {
    if 'a' <= c <= 'z' then (c as int - 32) as char else c
  }

  /** `s.toLowerCase()` restricted to ASCII letters. */
  function Lower(s: string): (r: string)
    ensures |r| == |s|
    ensures forall i :: 0 <= i < |s| ==> r[i] == LowerChar(s[i])
  {
    if s == [] then [] else [LowerChar(s[0])] + Lower(s[1..])
  }

  lemma {:induction false} LowerIdempotent(s: string)
    ensures Lower(Lower(s)) == Lower(s)
  {
  }

  lemma {:induction false} LowerEmpty()
    ensures Lower("") == ""
  {
  }

  /** A character matched by the regular-expression class `\w`. */
  predicate IsWordChar(c: char) {
    'a' <= c <= 'z' || 'A' <= c <= 'Z' || '0' <= c <= '9' || c == '_'
  }

  /** Position `i` of `s` is a word start: `\b\w` matches there. */
  predicate WordStart(s: string, i: int)
    requires 0 <= i < |s|
  {
    IsWordChar(s[i]) && (i == 0 || !IsWordChar(s[i - 1]))
  }

  /** `s.replace(/\b\w/g, l => l.toUpperCase())`, `prevWord` telling whether
      the character before `s` is a word character. */
  function CapitalizeFrom(s: string, prevWord: bool): (r: string)
    ensures |r| == |s|
    decreases |s|
  {
    if s == [] then []
    else
      var c := if IsWordChar(s[0]) && !prevWord then UpperChar(s[0]) else s[0];
      [c] + CapitalizeFrom(s[1..], IsWordChar(s[0]))
  }

  function CapitalizeWords(s: string): (r: string)
    ensures |r| == |s|
  {
    CapitalizeFrom(s, false)
  }

  lemma {:induction false} CapitalizeFromAt(s: string, prevWord: bool, i: nat)
    requires i < |s|
    ensures CapitalizeFrom(s, prevWord)[i] ==
              if IsWordChar(s[i]) && !(if i == 0 then prevWord else IsWordChar(s[i - 1]))
              then UpperChar(s[i]) else s[i]
    decreases i
  {
    if i > 0 {
      CapitalizeFromAt(s[1..], IsWordChar(s[0]), i - 1);
    }
  }

  /** Capitalisation is local: each part of a string is capitalised knowing
      only whether the character before it is a word character. */
  lemma {:induction false} CapitalizeFromAppend(s: string, t: string, prevWord: bool)
    ensures CapitalizeFrom(s + t, prevWord) ==
            CapitalizeFrom(s, prevWord) + CapitalizeFrom(t, if s == [] then prevWord else IsWordChar(s[|s| - 1]))
    decreases |s|
  {
    if s == [] {
      assert s + t == t;
    } else {
      assert (s + t)[0] == s[0];
      assert (s + t)[1..] == s[1..] + t;
      CapitalizeFromAppend(s[1..], t, IsWordChar(s[0]));
      if |s| > 1 {
        assert s[1..][|s[1..]| - 1] == s[|s| - 1];
      }
    }
  }

  predicate AllWordChars(s: string) {
    forall i :: 0 <= i < |s| ==> IsWordChar(s[i])
  }

  /** `s.charAt(0).toUpperCase() + s.slice(1)`. */
  function UpperFirst(s: string): (r: string)
    ensures |r| == |s|
    ensures s != [] ==> r[0] == UpperChar(s[0]) && r[1..] == s[1..]
  {
    if s == [] then "" else [UpperChar(s[0])] + s[1..]
  }

  /** Inside a word nothing is upper-cased. */
  lemma {:induction false} CapitalizeInsideWord(t: string)
    requires AllWordChars(t)
    ensures CapitalizeFrom(t, true) == t
  {
    if t != [] {
      CapitalizeInsideWord(t[1..]);
    }
  }

  /** A single word gets its first character upper-cased. */
  lemma {:induction false} CapitalizeWord(w: string)
    requires w != [] && AllWordChars(w)
    ensures CapitalizeFrom(w, false) == UpperFirst(w)
  {
    CapitalizeInsideWord(w[1..]);
  }

  /** Two words separated by a space each get their first character upper-cased. */
  lemma {:induction false} CapitalizeTwoWords(a: string, b: string)
    requires a != [] && AllWordChars(a) && b != [] && AllWordChars(b)
    ensures CapitalizeWords(a + " " + b) == UpperFirst(a) + " " + UpperFirst(b)
  {
    var sb := " " + b;
    CapitalizeFromAppend(a, sb, false);
    assert a + " " + b == a + sb;
    assert IsWordChar(a[|a| - 1]);
    CapitalizeWord(a);
    assert sb[0] == ' ' && sb[1..] == b;
    assert CapitalizeFrom(sb, true) == " " + CapitalizeFrom(b, false);
    CapitalizeWord(b);
  }

  /** Exactly the word starts are upper-cased; every other character is kept. */
  lemma {:induction false} CapitalizeWordsAt(s: string, i: nat)
    requires i < |s|
    ensures CapitalizeWords(s)[i] == if WordStart(s, i) then UpperChar(s[i]) else s[i]
  {
    CapitalizeFromAt(s, false, i);
  }

  /** `parts.join(sep)`. */
  function Join(parts: seq<string>, sep: string): (r: string)
    ensures |parts| == 1 ==> r == parts[0]
    ensures parts == [] ==> r == ""
  {
    if parts == [] then ""
    else if |parts| == 1 then parts[0]
    else parts[0] + sep + Join(parts[1..], sep)
  }

  // ---------------------------------------------------------------------------
  // Numbers
  // ---------------------------------------------------------------------------

  predicate IsDigit(c: char) {
    '0' <= c <= '9'
  }

  function DigitValue(c: char): (r: nat)
    requires IsDigit(c)
    ensures r < 10
  {
    c as int - '0' as int
  }

  function DigitChar(d: nat): (c: char)
    requires d < 10
    ensures IsDigit(c) && DigitValue(c) == d
  {
    ('0' as int + d) as char
  }

  predicate IsHexDigit(c: char) {
    IsDigit(c) || 'a' <= c <= 'f' || 'A' <= c <= 'F'
  }

  function HexDigitValue(c: char): (r: nat)
    requires IsHexDigit(c)
    ensures r < 16
  {
    if IsDigit(c) then DigitValue(c)
    else if 'a' <= c <= 'f' then c as int - 'a' as int + 10
    else c as int - 'A' as int + 10
  }

  predicate AllDigits(s: string) {
    forall i :: 0 <= i < |s| ==> IsDigit(s[i])
  }

  lemma {:induction false} AllDigitsNoChar(s: string, c: char)
    requires AllDigits(s) && !IsDigit(c)
    ensures c !in s
  {
  }

  /** `s.replace(/[^\d]/g, '')`: the decimal digits of `s`, in order. */
  function DigitsOnly(s: string): (r: string)
    ensures forall i :: 0 <= i < |r| ==> IsDigit(r[i])
  {
    if s == [] then ""
    else if IsDigit(s[0]) then [s[0]] + DigitsOnly(s[1..])
    else DigitsOnly(s[1..])
  }

  /** The white space `parseInt` skips before the number (the ASCII
      separators, no-break space, byte-order mark and line/paragraph separators). */
  predicate IsJsSpace(c: char) {
    c == ' ' || c == '\t' || c == '\n' || c == '\r' || c == '\U{000B}' || c == '\U{000C}'
    || c == '\U{00A0}' || c == '\U{FEFF}' || c == '\U{2028}' || c == '\U{2029}'
  }

  function TrimStart(s: string): (r: string)
    ensures |r| <= |s| && r == s[|s| - |r|..]
    ensures r != [] ==> !IsJsSpace(r[0])
  {
    if s != [] && IsJsSpace(s[0]) then TrimStart(s[1..]) else s
  }

  /** The longest prefix of `s` whose characters satisfy `IsDigit`. */
  function DigitPrefix(s: string): (r: string)
    ensures |r| <= |s| && r == s[..|r|]
    ensures forall i :: 0 <= i < |r| ==> IsDigit(r[i])
    ensures |r| < |s| ==> !IsDigit(s[|r|])
  {
    if s != [] && IsDigit(s[0]) then [s[0]] + DigitPrefix(s[1..]) else []
  }

  function HexPrefix(s: string): (r: string)
    ensures |r| <= |s| && r == s[..|r|]
    ensures forall i :: 0 <= i < |r| ==> IsHexDigit(r[i])
  {
    if s != [] && IsHexDigit(s[0]) then [s[0]] + HexPrefix(s[1..]) else []
  }

  /** The value of a string of decimal digits, most significant first,
      read onto the value `acc` of the digits before it. */
  function DecValueFrom(acc: nat, d: string): nat
    requires forall i :: 0 <= i < |d| ==> IsDigit(d[i])
    decreases |d|
  {
    if d == [] then acc else DecValueFrom(acc * 10 + DigitValue(d[0]), d[1..])
  }

  function DecValue(d: string): nat
    requires forall i :: 0 <= i < |d| ==> IsDigit(d[i])
  {
    DecValueFrom(0, d)
  }

  function HexValueFrom(acc: nat, d: string): nat
    requires forall i :: 0 <= i < |d| ==> IsHexDigit(d[i])
    decreases |d|
  {
    if d == [] then acc else HexValueFrom(acc * 16 + HexDigitValue(d[0]), d[1..])
  }

  /** The unsigned part of `parseInt`: hexadecimal digits after a `0x`/`0X`
      prefix, decimal digits otherwise, up to the first non-digit; `None` when
      no digit is read. */
  function ParseUnsigned(u: string): Option<nat> {
    if |u| >= 2 && u[0] == '0' && (u[1] == 'x' || u[1] == 'X') then
      var h := HexPrefix(u[2..]);
      if h == [] then None else Some(HexValueFrom(0, h))
    else
      var d := DigitPrefix(u);
      if d == [] then None else Some(DecValue(d))
  }

  /** `parseInt(s)` with no radix: skip leading white space, take an optional
      sign, then read the unsigned part. `None` stands for `NaN`. */
  function ParseInt(s: string): Option<int> {
    var t := TrimStart(s);
    var signed := t != [] && (t[0] == '-' || t[0] == '+');
    var u := if signed then t[1..] else t;
    match ParseUnsigned(u)
    case None => None
    case Some(m) => Some(if t != [] && t[0] == '-' then -(m as int) else m as int)
  }

  /** Decimal rendering of a natural number, without leading zeros. */
  function NatToString(n: nat): (r: string)
    ensures |r| > 0
    ensures forall i :: 0 <= i < |r| ==> IsDigit(r[i])
    ensures r[0] == '0' ==> n == 0 && r == "0"
  {
    if n < 10 then [DigitChar(n)] else NatToString(n / 10) + [DigitChar(n % 10)]
  }

  /** `String(n)` / `${n}` for an integer. */
  function IntToString(n: int): (r: string)
    ensures |r| > 0
  {
    if n < 0 then "-" + NatToString(-n) else NatToString(n)
  }

  /** Reading one more digit multiplies by ten and adds it. */
  lemma {:induction false} DecValueFromSnoc(acc: nat, d: string, c: char)
    requires forall i :: 0 <= i < |d| ==> IsDigit(d[i])
    requires IsDigit(c)
    ensures DecValueFrom(acc, d + [c]) == DecValueFrom(acc, d) * 10 + DigitValue(c)
    decreases |d|
  {
    if d == [] {
      assert d + [c] == [c];
    } else {
      assert (d + [c])[1..] == d[1..] + [c];
      DecValueFromSnoc(acc * 10 + DigitValue(d[0]), d[1..], c);
    }
  }

  lemma {:induction false} DecValueOfNatToString(n: nat)
    ensures DecValue(NatToString(n)) == n
    decreases n
  {
    if n >= 10 {
      DecValueOfNatToString(n / 10);
      DecValueFromSnoc(0, NatToString(n / 10), DigitChar(n % 10));
    } else {
      assert DecValueFrom(0, [DigitChar(n)]) == DecValueFrom(n, []);
    }
  }

  lemma {:induction false} DigitPrefixAllDigits(s: string)
    requires forall i :: 0 <= i < |s| ==> IsDigit(s[i])
    ensures DigitPrefix(s) == s
  {
    if s != [] {
      DigitPrefixAllDigits(s[1..]);
    }
  }

  lemma {:induction false} ParseUnsignedOfNatToString(m: nat)
    ensures ParseUnsigned(NatToString(m)) == Some(m)
  {
    var digits := NatToString(m);
    DigitPrefixAllDigits(digits);
    DecValueOfNatToString(m);
  }

  lemma {:induction false} ParseIntUnsignedStart(s: string)
    requires s != [] && IsDigit(s[0])
    ensures ParseInt(s) == ParseUnsigned(s)
  {
    assert TrimStart(s) == s;
  }

  lemma {:induction false} ParseIntMinusStart(s: string, m: nat)
    requires |s| >= 2 && s[0] == '-'
    requires ParseUnsigned(s[1..]) == Some(m)
    ensures ParseInt(s) == Some(-(m as int))
  {
    assert TrimStart(s) == s;
  }

  lemma {:induction false} ParseIntOfNatToString(m: nat)
    ensures ParseInt(IntToString(m)) == Some(m)
  {
    assert IntToString(m) == NatToString(m);
    ParseIntUnsignedStart(NatToString(m));
    ParseUnsignedOfNatToString(m);
  }

  lemma {:induction false} ParseIntOfNegative(m: nat)
    requires m > 0
    ensures ParseInt(IntToString(-(m as int))) == Some(-(m as int))
  {
    var s := IntToString(-(m as int));
    assert s == "-" + NatToString(m);
    assert s[1..] == NatToString(m);
    ParseUnsignedOfNatToString(m);
    ParseIntMinusStart(s, m);
  }

  /** `parseInt` reads back what number-to-string conversion writes. */
  lemma {:induction false} ParseIntOfIntToString(n: int)
    ensures ParseInt(IntToString(n)) == Some(n)
  {
    if n < 0 {
      ParseIntOfNegative(-n);
    } else {
      ParseIntOfNatToString(n);
    }
  }
}

=== FILE: trade_in_page.dfy ===
/** The trade-in estimator page (`src/components/pages/TradeInEstimator.jsx`):
    its form, the submit guard, the error screen and the condition colours. */
module TradeInPage {
  import opened Wrappers
  import Forms
  import TradeIn

  datatype Form = Form(model: string, condition: string, storage: string)

  datatype Field = Model | Condition | Storage

  function Get(f: Form, field: Field): string {
    match field
    case Model => f.model
    case Condition => f.condition
    case Storage => f.storage
  }

  /** `{ ...prev, [field]: value }`. */
  function SetField(f: Form, field: Field, value: string): (g: Form)
    ensures Get(g, field) == value
    ensures forall other :: other != field ==> Get(g, other) == Get(f, other)
  {
    match field
    case Model => f.(model := value)
    case Condition => f.(condition := value)
    case Storage => f.(storage := value)
  }

  type State = Forms.Page<Form, TradeIn.Estimate>

  const EmptyForm := Form("", "", "")
  const MissingFields := "Please fill in all required fields"
  const Failure := "Failed to calculate trade-in value. Please try again."

  /** The page as it first renders, and as `handleReset` leaves it. */
  function Reset(): (s: State)
    ensures s.form == EmptyForm && s.result.None? && s.error == ""
  {
    Forms.Blank(EmptyForm)
  }

  /** `handleInputChange`: one field changes and the error is cleared. */
  function HandleInputChange(s: State, field: Field, value: string): (t: State)
    ensures Get(t.form, field) == value
    ensures forall other :: other != field ==> Get(t.form, other) == Get(s.form, other)
    ensures t.result == s.result && t.error == ""
  {
    s.(form := SetField(s.form, field, value), error := "")
  }

  /** The submit guard: every field is required. */
  function Guard(f: Form): (m: Option<string>)
    ensures m.None? <==> forall field :: Get(f, field) != ""
    ensures m.Some? ==> m.value == MissingFields
  {
    if f.model == "" || f.condition == "" || f.storage == "" then
      assert Get(f, Model) == "" || Get(f, Condition) == "" || Get(f, Storage) == "";
      Some(MissingFields)
    else None
  }

  /** `handleSubmit`. The estimate cannot fail, so a complete form always
      shows a fresh estimate. */
  function Submit(s: State): (t: State)
    ensures t.form == s.form
    ensures Guard(s.form).Some? ==> t.result == s.result && t.error == MissingFields
    ensures Guard(s.form).None? ==>
              t.result == Some(TradeIn.GetEstimate(s.form.model, s.form.condition, s.form.storage)) && t.error == ""
  {
    match Guard(s.form)
    case Some(m) => Forms.Reject(s, m)
    case None => Forms.Complete(s, Ok(TradeIn.GetEstimate(s.form.model, s.form.condition, s.form.storage)), Failure)
  }

  /** `error && !result`: the error screen replaces the form. */
  predicate ShowsErrorScreen(s: State) {
    s.error != "" && s.result.None?
  }

  /** The retry button clears the error and nothing else. */
  function Retry(s: State): (t: State)
    ensures !ShowsErrorScreen(t)
    ensures t.form == s.form && t.result == s.result
  {
    s.(error := "")
  }

  /** Submitting an incomplete form before any estimate exists replaces the
      whole form with the error screen, not just an inline message. */
  lemma {:induction false} IncompleteFirstSubmitShowsErrorScreen(f: Form)
    requires exists field :: Get(f, field) == ""
    ensures ShowsErrorScreen(Submit(Reset().(form := f)))
  {
  }

  /** Once an estimate is shown, errors stay inline. */
  lemma {:induction false} ErrorScreenNeedsNoResult(s: State)
    requires s.result.Some?
    ensures !ShowsErrorScreen(Submit(s))
  {
  }

  const GrayText := "text-gray-600"

  /** `getConditionColor`. */
  function ConditionColor(condition: string): string {
    if condition == "excellent" then "text-green-600"
    else if condition == "good" then "text-blue-600"
    else if condition == "fair" then "text-yellow-600"
    else if condition == "poor" then "text-red-600"
    else GrayText
  }

  /** The conditions with a colour of their own are exactly the conditions
      the estimator has a multiplier for, and no two share a colour. */
  lemma {:induction false} ConditionColorsMatchTable(c: string, d: string)
    ensures ConditionColor(c) != GrayText <==> c in TradeIn.ConditionTenths
    ensures c != d && ConditionColor(c) != GrayText ==> ConditionColor(c) != ConditionColor(d)
  {
  }
}

=== FILE: tradein.dfy ===
/** The trade-in estimator service (`src/services/api/tradeInService.js`).
    The decimal multipliers of the source are held as integer tenths, so the
    product base × condition × storage is an integer number of cents and the
    rounding to whole dollars is integer arithmetic. */
module TradeIn {

  /** `baseValues`: the trade-in base value in dollars, by model name. */
  const BaseValues: map<string, nat> := map[
    "Galaxy S24 Ultra" := 850,
    "Galaxy S24 Plus" := 650,
    "Galaxy S24" := 550,
    "Galaxy S23 Ultra" := 750,
    "Galaxy S23 Plus" := 550,
    "Galaxy S23" := 450,
    "Galaxy Note 20 Ultra" := 500,
    "Galaxy Note 20" := 400,
    "Galaxy A54" := 250,
    "Galaxy A34" := 180,
    "Galaxy Z Fold 5" := 900,
    "Galaxy Z Flip 5" := 450
  ]

  /** `conditionMultipliers`, in tenths. */
  const ConditionTenths: map<string, nat> := map[
    "excellent" := 10,
    "good" := 8,
    "fair" := 6,
    "poor" := 4
  ]

  /** `storageMultipliers`, in tenths. */
  const StorageTenths: map<string, nat> := map[
    "64GB" := 9,
    "128GB" := 10,
    "256GB" := 11,
    "512GB" := 12,
    "1TB" := 13
  ]

  const DefaultBase: nat := 300
  const DefaultConditionTenths: nat := 8
  const DefaultStorageTenths: nat := 10

  /** The three lookups with the source's fallbacks for keys not in a table. */
  function Base(model: string): nat {
    if model in BaseValues then BaseValues[model] else DefaultBase
  }

  function Condition(condition: string): nat {
    if condition in ConditionTenths then ConditionTenths[condition] else DefaultConditionTenths
  }

  function Storage(storage: string): nat {
    if storage in StorageTenths then StorageTenths[storage] else DefaultStorageTenths
  }

  lemma {:induction false} BaseRange(model: string)
    ensures 180 <= Base(model) <= 900 && Base(model) % 10 == 0
  {
  }

  lemma {:induction false} ConditionRange(condition: string)
    ensures Condition(condition) in {4, 6, 8, 10}
  {
  }

  lemma {:induction false} StorageRange(storage: string)
    ensures 9 <= Storage(storage) <= 13
  {
  }

  /** The exact product base × condition × storage, in cents. */
  function Cents(model: string, condition: string, storage: string): nat {
    Base(model) * Condition(condition) * Storage(storage)
  }

  /** The product is never exactly half-way between two whole dollars: the
      base is a multiple of 10 and every condition multiplier an even number of
      tenths, so the cents are a multiple of 20. */
  lemma {:induction false} NeverHalfWay(model: string, condition: string, storage: string)
    ensures Cents(model, condition, storage) % 100 != 50
  {
    BaseRange(model);
    ConditionRange(condition);
    var base, cond, s := Base(model), Condition(condition), Storage(storage);
    var b, c := base / 10, cond / 2;
    assert base == 10 * b;
    assert cond == 2 * c;
    ProductOfMultiples(b, c, s);
    MultipleOfTwenty(b * c * s);
  }

  lemma {:induction false} ProductOfMultiples(b: nat, c: nat, s: nat)
    ensures (10 * b) * (2 * c) * s == 20 * (b * c * s)
  {
  }

  lemma {:induction false} MultipleOfTwenty(k: nat)
    ensures (20 * k) % 100 != 50
  {
    var q, r := k / 5, k % 5;
    assert 20 * k == 100 * q + 20 * r;
  }

  /** `Math.round(baseValue * conditionMultiplier * storageMultiplier)`: the
      whole-dollar amount nearest to the product, which is never a tie. */
  function EstimatedValue(model: string, condition: string, storage: string): (v: nat)
    ensures 100 * v - 50 < Cents(model, condition, storage) < 100 * v + 50
  {
    NeverHalfWay(model, condition, storage);
    (Cents(model, condition, storage) + 50) / 100
  }

  lemma {:induction false} RoundMonotone(x: nat, y: nat)
    requires x <= y
    ensures (x + 50) / 100 <= (y + 50) / 100
  {
  }

  lemma {:induction false} MulMonotone(a: nat, b: nat, c: nat, d: nat)
    requires a <= b && c <= d
    ensures a * c <= b * d
  {
    assert a * c <= b * c;
    assert b * c <= b * d;
  }

  /** Every estimate lies between 180 × 0.4 × 0.9 = 64.8, rounded to 65, and
      900 × 1.0 × 1.3 = 1170. */
  lemma {:induction false} EstimateBounds(model: string, condition: string, storage: string)
    ensures 65 <= EstimatedValue(model, condition, storage) <= 1170
  {
    var b, c, s := Base(model), Condition(condition), Storage(storage);
    BaseRange(model);
    ConditionRange(condition);
    StorageRange(storage);
    MulMonotone(180, b, 4, c);
    MulMonotone(180 * 4, b * c, 9, s);
    MulMonotone(b, 900, c, 10);
    MulMonotone(b * c, 900 * 10, s, 13);
    RoundMonotone(6480, Cents(model, condition, storage));
    RoundMonotone(Cents(model, condition, storage), 117000);
  }

  /** With model and storage fixed, a larger condition multiplier never
      lowers the estimate. */
  lemma {:induction false} ConditionStep(model: string, storage: string, c1: string, c2: string)
    requires Condition(c1) <= Condition(c2)
    ensures EstimatedValue(model, c1, storage) <= EstimatedValue(model, c2, storage)
  {
    var b, s := Base(model), Storage(storage);
    MulMonotone(b, b, Condition(c1), Condition(c2));
    MulMonotone(b * Condition(c1), b * Condition(c2), s, s);
    RoundMonotone(Cents(model, c1, storage), Cents(model, c2, storage));
  }

  /** With model and condition fixed, a larger storage multiplier never
      lowers the estimate. */
  lemma {:induction false} StorageStep(model: string, condition: string, s1: string, s2: string)
    requires Storage(s1) <= Storage(s2)
    ensures EstimatedValue(model, condition, s1) <= EstimatedValue(model, condition, s2)
  {
    var bc := Base(model) * Condition(condition);
    MulMonotone(bc, bc, Storage(s1), Storage(s2));
    RoundMonotone(Cents(model, condition, s1), Cents(model, condition, s2));
  }

  /** A better condition never lowers the estimate. */
  lemma {:induction false} ConditionMonotone(model: string, storage: string)
    ensures EstimatedValue(model, "excellent", storage) >= EstimatedValue(model, "good", storage)
    ensures EstimatedValue(model, "good", storage) >= EstimatedValue(model, "fair", storage)
    ensures EstimatedValue(model, "fair", storage) >= EstimatedValue(model, "poor", storage)
  {
    ConditionStep(model, storage, "good", "excellent");
    ConditionStep(model, storage, "fair", "good");
    ConditionStep(model, storage, "poor", "fair");
  }

  /** A larger storage tier never lowers the estimate. */
  lemma {:induction false} StorageMonotone(model: string, condition: string)
    ensures EstimatedValue(model, condition, "128GB") >= EstimatedValue(model, condition, "64GB")
    ensures EstimatedValue(model, condition, "256GB") >= EstimatedValue(model, condition, "128GB")
    ensures EstimatedValue(model, condition, "512GB") >= EstimatedValue(model, condition, "256GB")
    ensures EstimatedValue(model, condition, "1TB") >= EstimatedValue(model, condition, "512GB")
  {
    StorageStep(model, condition, "64GB", "128GB");
    StorageStep(model, condition, "128GB", "256GB");
    StorageStep(model, condition, "256GB", "512GB");
    StorageStep(model, condition, "512GB", "1TB");
  }

  const PrivateSaleTip := "Your device is in excellent condition - consider selling privately for higher value"
  const ProtectionTip := "Consider getting a screen protector and case for your next device"
  const HighStorageTip := "High storage capacity adds significant value to your trade-in"
  const GeneralTips := [
    "Clean your device thoroughly before trade-in inspection",
    "Include original charger and accessories when possible",
    "Check multiple retailers for the best trade-in offers",
    "Consider timing your trade-in with new phone launches for better deals"
  ]

  predicate IsHighStorage(storage: string) {
    storage == "1TB" || storage == "512GB"
  }

  /** `generateTips`: a condition tip for excellent or poor devices, a storage
      tip for 512GB and 1TB, then the general tips, cut to the first four. */
  function Tips(condition: string, storage: string): (r: seq<string>)
    ensures |r| == 4
    ensures condition == "excellent" ==> r[0] == PrivateSaleTip
    ensures condition == "poor" ==> r[0] == ProtectionTip
    ensures condition != "excellent" && condition != "poor" ==>
              PrivateSaleTip !in r && ProtectionTip !in r
    ensures HighStorageTip in r <==> IsHighStorage(storage)
    ensures r[3] in GeneralTips
  {
    var conditionTips :=
      if condition == "excellent" then [PrivateSaleTip]
      else if condition == "poor" then [ProtectionTip]
      else [];
    var storageTips := if IsHighStorage(storage) then [HighStorageTip] else [];
    var tips := conditionTips + storageTips + GeneralTips;
    assert IsHighStorage(storage) ==> tips[|conditionTips|] == HighStorageTip;
    assert HighStorageTip !in conditionTips + GeneralTips;
    assert !IsHighStorage(storage) ==> tips == conditionTips + GeneralTips;
    tips[..4]
  }

  /** The estimate `getEstimate` resolves with, without its Id and timestamp. */
  datatype Estimate = Estimate(
    model: string,
    condition: string,
    storage: string,
    estimatedValue: nat,
    tips: seq<string>)

  function GetEstimate(model: string, condition: string, storage: string): (e: Estimate)
    ensures e.model == model && e.condition == condition && e.storage == storage
    ensures 65 <= e.estimatedValue <= 1170
    ensures 100 * e.estimatedValue - 50 < Cents(model, condition, storage) < 100 * e.estimatedValue + 50
    ensures e.estimatedValue == EstimatedValue(model, condition, storage)
    ensures e.tips == Tips(condition, storage)
  {
    EstimateBounds(model, condition, storage);
    Estimate(model, condition, storage, EstimatedValue(model, condition, storage), Tips(condition, storage))
  }

  /** round(550 × 0.8 × 1.0) = 440. */
  lemma {:induction false} ExampleGalaxyS24Good128()
    ensures GetEstimate("Galaxy S24", "good", "128GB").estimatedValue == 440
  {
    assert Base("Galaxy S24") == 550;
    assert Condition("good") == 8;
    assert Storage("128GB") == 10;
  }
}

=== FILE: update_tracker.dfy ===
/** The filter pipeline of the update tracker page
    (`src/components/pages/UpdateTracker.jsx`): a search term, a model and an
    update type, each applied only when set. */
module UpdateTracker {
  import Text
  import Seqs
  import opened Updates

  /** The three filter controls of the page. */
  datatype Filters = Filters(searchTerm: string, selectedModel: string, selectedType: string)

  /** Case-insensitive substring match on the model, version or description. */
  predicate MatchesSearch(u: UpdateRecord, term: string) {
    var t := Text.Lower(term);
    Text.Includes(Text.Lower(u.model), t)
    || Text.Includes(Text.Lower(u.version), t)
    || Text.Includes(Text.Lower(u.description), t)
  }

  function SearchFilter(term: string): UpdateRecord -> bool {
    (u: UpdateRecord) => MatchesSearch(u, term)
  }

  function TypeFilter(kind: string): UpdateRecord -> bool {
    (u: UpdateRecord) => u.kind == kind
  }

  /** `filterUpdates`. */
  function FilterUpdates(updates: seq<UpdateRecord>, f: Filters): seq<UpdateRecord> {
    var bySearch := if f.searchTerm != "" then Seqs.Filter(updates, SearchFilter(f.searchTerm)) else updates;
    var byModel := if f.selectedModel != "" then Seqs.Filter(bySearch, HasModel(f.selectedModel)) else bySearch;
    if f.selectedType != "all" then Seqs.Filter(byModel, TypeFilter(f.selectedType)) else byModel
  }

  /** The test every kept update passes; an unset control accepts everything. */
  predicate Keep(f: Filters, u: UpdateRecord) {
    && (f.searchTerm == "" || MatchesSearch(u, f.searchTerm))
    && (f.selectedModel == "" || u.model == f.selectedModel)
    && (f.selectedType == "all" || u.kind == f.selectedType)
  }

  function KeepFilter(f: Filters): UpdateRecord -> bool {
    (u: UpdateRecord) => Keep(f, u)
  }

  function SearchStage(f: Filters): UpdateRecord -> bool {
    (u: UpdateRecord) => f.searchTerm == "" || MatchesSearch(u, f.searchTerm)
  }

  function ModelStage(f: Filters): UpdateRecord -> bool {
    (u: UpdateRecord) => f.selectedModel == "" || u.model == f.selectedModel
  }

  function TypeStage(f: Filters): UpdateRecord -> bool {
    (u: UpdateRecord) => f.selectedType == "all" || u.kind == f.selectedType
  }

  /** A stage that is switched off keeps its input. */
  lemma {:induction false} StageOrSkip(xs: seq<UpdateRecord>, on: bool, p: UpdateRecord -> bool, stage: UpdateRecord -> bool)
    requires forall u :: stage(u) == (!on || p(u))
    ensures (if on then Seqs.Filter(xs, p) else xs) == Seqs.Filter(xs, stage)
  {
    if on {
      Seqs.FilterSame(xs, p, stage);
    } else {
      Seqs.FilterAll(xs, stage);
    }
  }

  /** The pipeline is one filter by the conjunction of the three tests. */
  lemma {:induction false} FilterUpdatesIsKeep(updates: seq<UpdateRecord>, f: Filters)
    ensures FilterUpdates(updates, f) == Seqs.Filter(updates, KeepFilter(f))
  {
    var s1 := if f.searchTerm != "" then Seqs.Filter(updates, SearchFilter(f.searchTerm)) else updates;
    StageOrSkip(updates, f.searchTerm != "", SearchFilter(f.searchTerm), SearchStage(f));
    var s2 := if f.selectedModel != "" then Seqs.Filter(s1, HasModel(f.selectedModel)) else s1;
    StageOrSkip(s1, f.selectedModel != "", HasModel(f.selectedModel), ModelStage(f));
    StageOrSkip(s2, f.selectedType != "all", TypeFilter(f.selectedType), TypeStage(f));
    var sm := (u: UpdateRecord) => SearchStage(f)(u) && ModelStage(f)(u);
    Seqs.FilterFilter(updates, SearchStage(f), ModelStage(f), sm);
    Seqs.FilterFilter(updates, sm, TypeStage(f), KeepFilter(f));
  }

  /** The kept updates are in their original order, and an update is kept
      exactly when it passes all three tests. */
  lemma {:induction false} FilterUpdatesSpec(updates: seq<UpdateRecord>, f: Filters)
    ensures Seqs.IsSubsequence(FilterUpdates(updates, f), updates)
    ensures forall u :: u in FilterUpdates(updates, f) <==> u in updates && Keep(f, u)
  {
    FilterUpdatesIsKeep(updates, f);
    Seqs.FilterSpec(updates, KeepFilter(f));
  }

  /** Applying the model test before the search gives the same list: the
      order of the stages does not matter. */
  lemma {:induction false} StagesCommute(updates: seq<UpdateRecord>, f: Filters)
    ensures Seqs.Filter(Seqs.Filter(Seqs.Filter(updates, TypeStage(f)), ModelStage(f)), SearchStage(f))
            == FilterUpdates(updates, f)
  {
    FilterUpdatesIsKeep(updates, f);
    var tm := (u: UpdateRecord) => TypeStage(f)(u) && ModelStage(f)(u);
    Seqs.FilterFilter(updates, TypeStage(f), ModelStage(f), tm);
    Seqs.FilterFilter(updates, tm, SearchStage(f), KeepFilter(f));
  }

  /** Matching ignores ASCII case on both sides. */
  lemma {:induction false} SearchIgnoresCase(u: UpdateRecord, term: string)
    ensures MatchesSearch(u, Text.Lower(term)) == MatchesSearch(u, term)
  {
    Text.LowerIdempotent(term);
  }

  /** An empty term would match every update, so skipping the search when
      the term is empty changes nothing. */
  lemma {:induction false} EmptySearchMatchesAll(u: UpdateRecord)
    ensures MatchesSearch(u, "")
  {
    Text.LowerEmpty();
    Text.IncludesEmpty(Text.Lower(u.model));
  }

  /** The Clear Filters action. */
  const Cleared := Filters("", "", "all")

  lemma {:induction false} ClearedShowsAll(updates: seq<UpdateRecord>)
    ensures FilterUpdates(updates, Cleared) == updates
  {
  }
}

=== FILE: updates.dfy ===
/** The software update lookups (`src/services/api/updateService.js`). The
    seed list of updates is not part of this model and is a parameter; a
    release date is an integer that orders like the calendar date it stands
    for (for example 20240115). */
module Updates {
  import opened Wrappers
  import Text
  import Seqs

  /** The fields of an update that the lookups and the tracker read. */
  datatype UpdateRecord = UpdateRecord(
    id: int,
    model: string,
    version: string,
    description: string,
    kind: string,
    status: string,
    releaseDate: int)

  const NotFound := "Update not found"

  function ReleaseDate(u: UpdateRecord): int {
    u.releaseDate
  }

  /** `getAll`: a copy of the seed list sorted newest first. */
  function GetAll(updates: seq<UpdateRecord>): seq<UpdateRecord> {
    Seqs.SortDesc(updates, ReleaseDate)
  }

  /** The sorted list holds every update exactly as often as the seed list does,
      newest first, and updates released on the same date keep their seed order. */
  lemma {:induction false} GetAllSpec(updates: seq<UpdateRecord>)
    ensures |GetAll(updates)| == |updates|
    ensures multiset(GetAll(updates)) == multiset(updates)
    ensures forall i, j :: 0 <= i < j < |updates| ==>
              GetAll(updates)[i].releaseDate >= GetAll(updates)[j].releaseDate
    ensures forall date :: Seqs.Filter(GetAll(updates), Seqs.KeyIs(ReleaseDate, date))
                           == Seqs.Filter(updates, Seqs.KeyIs(ReleaseDate, date))
  {
    forall date
      ensures Seqs.Filter(GetAll(updates), Seqs.KeyIs(ReleaseDate, date))
              == Seqs.Filter(updates, Seqs.KeyIs(ReleaseDate, date))
    {
      Seqs.SortDescStable(updates, ReleaseDate, date);
    }
    Seqs.SortDescSpec(updates, ReleaseDate);
    var r := GetAll(updates);
    forall i, j | 0 <= i < j < |updates|
      ensures r[i].releaseDate >= r[j].releaseDate
    {
      assert ReleaseDate(r[i]) >= ReleaseDate(r[j]);
    }
  }

  function HasId(id: int): UpdateRecord -> bool {
    (u: UpdateRecord) => u.id == id
  }

  /** `getById`: the first update whose Id is `parseInt(id)`. */
  function GetById(updates: seq<UpdateRecord>, id: string): (r: Result<UpdateRecord>)
    ensures r.Ok? <==> Text.ParseInt(id).Some? &&
                       exists i :: 0 <= i < |updates| && updates[i].id == Text.ParseInt(id).value
    ensures r.Ok? ==> exists i :: 0 <= i < |updates| && updates[i] == r.value
                                 && (forall j :: 0 <= j < i ==> updates[j].id != r.value.id)
    ensures r.Ok? ==> r.value.id == Text.ParseInt(id).value
    ensures r.Err? ==> r.error == NotFound
  {
    match Text.ParseInt(id)
    case None => Err(NotFound)
    case Some(n) =>
      match Seqs.FindIndex(updates, HasId(n))
      case None => Err(NotFound)
      case Some(i) => Ok(updates[i])
  }

  function HasModel(model: string): UpdateRecord -> bool {
    (u: UpdateRecord) => u.model == model
  }

  /** `getByModel`: the updates for exactly this model, in seed order. */
  function GetByModel(updates: seq<UpdateRecord>, model: string): seq<UpdateRecord> {
    Seqs.Filter(updates, HasModel(model))
  }

  /** The updates of that model, each as often as in the seed list, in seed
      order; no other update. */
  lemma {:induction false} GetByModelSpec(updates: seq<UpdateRecord>, model: string)
    ensures Seqs.IsSubsequence(GetByModel(updates, model), updates)
    ensures forall u :: u in GetByModel(updates, model) <==> u in updates && u.model == model
    ensures forall u :: multiset(GetByModel(updates, model))[u]
                        == if u.model == model then multiset(updates)[u] else 0
  {
    Seqs.FilterSpec(updates, HasModel(model));
  }
}

=== FILE: upgrade.dfy ===
/** The upgrade advisor service (`src/services/api/upgradeService.js`):
    scores the five upgrade options against the user's priorities and budget,
    drops the phone the user already has, sorts best first and splits the
    list into a top recommendation and up to three alternatives. */
module Upgrade {
  import opened Wrappers
  import Text
  import Seqs

  datatype UpgradeOption = UpgradeOption(
    model: string,
    price: string,
    releaseDate: string,
    strengths: seq<string>,
    score: int)

  /** `upgradeOptions`. */
  const Options: seq<UpgradeOption> := [
    UpgradeOption("Galaxy S24 Ultra", "$1,299", "2024",
                  ["Best camera system", "S Pen included", "Premium build"], 95),
    UpgradeOption("Galaxy S24 Plus", "$999", "2024",
                  ["Large display", "Great performance", "Good value"], 88),
    UpgradeOption("Galaxy S24", "$799", "2024",
                  ["Compact size", "Latest features", "Affordable"], 85),
    UpgradeOption("Galaxy Z Fold 5", "$1,799", "2023",
                  ["Foldable display", "Multitasking", "Unique form factor"], 82),
    UpgradeOption("Galaxy Z Flip 5", "$999", "2023",
                  ["Compact foldable", "Stylish design", "Improved hinge"], 78)
  ]

  /** A budget bracket; both bounds are inclusive. */
  datatype Range = Range(min: int, max: int)

  /** `budgetRanges`. */
  const BudgetRanges: map<string, Range> := map[
    "under-500" := Range(0, 500),
    "500-800" := Range(500, 800),
    "800-1200" := Range(800, 1200),
    "over-1200" := Range(1200, 9999),
    "no-limit" := Range(0, 9999)
  ]

  /** What reading `range.min` on the missing bracket throws. */
  const MissingRangeError := "TypeError: Cannot read properties of undefined (reading 'min')"

  /** `parseInt` of the price with every non-digit removed; `None` is `NaN`. */
  function Price(o: UpgradeOption): Option<int> {
    Text.ParseInt(Text.DigitsOnly(o.price))
  }

  lemma {:induction false} PriceOf(o: UpgradeOption, digits: string, n: nat)
    requires Text.DigitsOnly(o.price) == digits
    requires Text.IntToString(n) == digits
    ensures Price(o) == Some(n)
  {
    Text.ParseIntOfIntToString(n);
  }

  /** The prices the scoring reads from the option table. */
  lemma {:induction false} OptionPrice0()
    ensures Price(Options[0]) == Some(1299)
  {
    PriceOf(Options[0], "1299", 1299);
  }

  lemma {:induction false} OptionPrice1()
    ensures Price(Options[1]) == Some(999)
  {
    PriceOf(Options[1], "999", 999);
  }

  lemma {:induction false} OptionPrice2()
    ensures Price(Options[2]) == Some(799)
  {
    PriceOf(Options[2], "799", 799);
  }

  lemma {:induction false} OptionPrice3()
    ensures Price(Options[3]) == Some(1799)
  {
    PriceOf(Options[3], "1799", 1799);
  }

  lemma {:induction false} OptionPrice4()
    ensures Price(Options[4]) == Some(999)
  {
    PriceOf(Options[4], "999", 999);
  }

  /** The price lies outside the bracket; a `NaN` price fails both comparisons. */
  predicate OutsideBudget(price: Option<int>, range: Range) {
    price.Some? && (price.value < range.min || price.value > range.max)
  }

  /** The score before clamping: the base score, the four priority bonuses
      and the budget penalty. */
  function RawScore(o: UpgradeOption, priorities: seq<string>, range: Range): int {
    var price := Price(o);
    o.score
    + (if "camera" in priorities && Text.Includes(o.model, "Ultra") then 5 else 0)
    + (if "price" in priorities && price.Some? && price.value < 800 then 8 else 0)
    + (if "performance" in priorities && o.releaseDate == "2024" then 3 else 0)
    + (if "battery" in priorities && Text.Includes(o.model, "Plus") then 4 else 0)
    - (if OutsideBudget(price, range) then 15 else 0)
  }

  /** `Math.min(Math.max(score, 0), 100)`. */
  function ClampScore(x: int): (r: int)
    ensures 0 <= r <= 100
    ensures 0 <= x <= 100 ==> r == x
    ensures x < 0 ==> r == 0
    ensures x > 100 ==> r == 100
  {
    if x < 0 then 0 else if x > 100 then 100 else x
  }

  /** One option re-scored for the user's priorities and budget. */
  function Rescore(o: UpgradeOption, priorities: seq<string>, range: Range): (r: UpgradeOption)
    ensures r == o.(score := r.score)
    ensures r.model == o.model && r.price == o.price && r.strengths == o.strengths
    ensures r.releaseDate == o.releaseDate
    ensures r.score == ClampScore(RawScore(o, priorities, range))
    ensures 0 <= r.score <= 100
  {
    o.(score := ClampScore(RawScore(o, priorities, range)))
  }

  function RescoreAll(os: seq<UpgradeOption>, priorities: seq<string>, range: Range): (r: seq<UpgradeOption>)
    ensures |r| == |os|
    ensures forall i :: 0 <= i < |os| ==> r[i] == Rescore(os[i], priorities, range)
  {
    if os == [] then [] else [Rescore(os[0], priorities, range)] + RescoreAll(os[1..], priorities, range)
  }

  function Score(o: UpgradeOption): int {
    o.score
  }

  /** The options that are not the user's current phone. */
  function Candidates(currentModel: string): seq<UpgradeOption> {
    Seqs.Filter(Options, NotCurrent(currentModel))
  }

  function NotCurrent(currentModel: string): UpgradeOption -> bool {
    (o: UpgradeOption) => o.model != currentModel
  }

  predicate IsOption(model: string) {
    exists i :: 0 <= i < |Options| && Options[i].model == model
  }

  /** No two options share a model name. */
  lemma {:induction false} ModelsDistinct()
    ensures forall i, j :: 0 <= i < j < |Options| ==> Options[i].model != Options[j].model
  {
  }

  /** The candidates are the options other than the current phone. */
  lemma {:induction false} CandidatesMembers(currentModel: string)
    ensures forall o :: o in Candidates(currentModel) <==> o in Options && o.model != currentModel
  {
    Seqs.FilterSpec(Options, NotCurrent(currentModel));
  }

  /** Exactly one option is dropped when the current phone is one of them,
      none otherwise. */
  lemma {:induction false} CandidatesCount(currentModel: string)
    ensures |Candidates(currentModel)| == if IsOption(currentModel) then 4 else 5
  {
    if IsOption(currentModel) {
      var k :| 0 <= k < |Options| && Options[k].model == currentModel;
      ModelsDistinct();
      Seqs.FilterDropsOne(Options, NotCurrent(currentModel), k);
    } else {
      Seqs.FilterAll(Options, NotCurrent(currentModel));
    }
  }

  /** `calculateScores`: the candidates re-scored and sorted best first.
      A budget with no bracket makes the scoring throw. */
  function CalculateScores(currentModel: string, priorities: seq<string>, budget: string): (r: Result<seq<UpgradeOption>>)
    ensures r.Ok? <==> budget in BudgetRanges
  {
    if budget !in BudgetRanges then Err(MissingRangeError)
    else Ok(Seqs.SortDesc(RescoreAll(Candidates(currentModel), priorities, BudgetRanges[budget]), Score))
  }

  /** The scored list leaves out the current phone, keeps every other option
      exactly once with its score clamped to [0, 100], and is sorted best
      first; options with equal scores keep the order of the option table. */
  lemma {:induction false} CalculateScoresSpec(currentModel: string, priorities: seq<string>, budget: string)
    requires budget in BudgetRanges
    ensures var r := CalculateScores(currentModel, priorities, budget).value;
      && |r| == (if IsOption(currentModel) then 4 else 5)
      && (forall o :: o in r ==> o.model != currentModel && 0 <= o.score <= 100)
      && Seqs.SortedDesc(r, Score)
      && multiset(r) == multiset(RescoreAll(Candidates(currentModel), priorities, BudgetRanges[budget]))
      && forall k :: Seqs.Filter(r, Seqs.KeyIs(Score, k))
                     == Seqs.Filter(RescoreAll(Candidates(currentModel), priorities, BudgetRanges[budget]), Seqs.KeyIs(Score, k))
  {
    CandidatesCount(currentModel);
    var scored := RescoreAll(Candidates(currentModel), priorities, BudgetRanges[budget]);
    forall k
      ensures Seqs.Filter(Seqs.SortDesc(scored, Score), Seqs.KeyIs(Score, k)) == Seqs.Filter(scored, Seqs.KeyIs(Score, k))
    {
      Seqs.SortDescStable(scored, Score, k);
    }
    RescoredCandidates(currentModel, priorities, BudgetRanges[budget]);
    Seqs.SortDescSpec(scored, Score);
    var sorted := Seqs.SortDesc(scored, Score);
    forall o | o in sorted
      ensures o in scored
    {
      assert o in multiset(scored);
    }
  }

  /** Every re-scored candidate is another phone with a score in [0, 100]. */
  lemma {:induction false} RescoredCandidates(currentModel: string, priorities: seq<string>, range: Range)
    ensures forall o :: o in RescoreAll(Candidates(currentModel), priorities, range) ==>
              o.model != currentModel && 0 <= o.score <= 100
  {
    CandidatesMembers(currentModel);
    var cs := Candidates(currentModel);
    var scored := RescoreAll(cs, priorities, range);
    forall o | o in scored
      ensures o.model != currentModel
    {
      var i :| 0 <= i < |scored| && scored[i] == o;
      assert cs[i] in cs;
    }
  }

  /** The points one priority adds to an option, as the score table lists them. */
  function Bonus(o: UpgradeOption, priority: string): nat {
    var price := Price(o);
    if priority == "camera" then (if Text.Includes(o.model, "Ultra") then 5 else 0)
    else if priority == "price" then (if price.Some? && price.value < 800 then 8 else 0)
    else if priority == "performance" then (if o.releaseDate == "2024" then 3 else 0)
    else if priority == "battery" then (if Text.Includes(o.model, "Plus") then 4 else 0)
    else 0
  }

  /** Selecting one more priority adds exactly that priority's bonus. */
  lemma {:induction false} PriorityBonus(o: UpgradeOption, ps: seq<string>, p: string, range: Range)
    requires p !in ps
    ensures RawScore(o, ps + [p], range) == RawScore(o, ps, range) + Bonus(o, p)
  {
    InAppended(ps, p, "camera");
    InAppended(ps, p, "price");
    InAppended(ps, p, "performance");
    InAppended(ps, p, "battery");
  }

  lemma {:induction false} InAppended(ps: seq<string>, p: string, q: string)
    ensures (q in ps + [p]) == (q in ps || q == p)
  {
    assert (ps + [p])[|ps|] == p;
    if q in ps + [p] && q != p {
      var i :| 0 <= i < |ps| + 1 && (ps + [p])[i] == q;
      assert ps[i] == q;
    }
    if q in ps {
      var i :| 0 <= i < |ps| && ps[i] == q;
      assert (ps + [p])[i] == q;
    }
  }

  /** A price outside the bracket costs exactly fifteen points against a
      bracket the price lies in. */
  lemma {:induction false} BudgetPenalty(o: UpgradeOption, ps: seq<string>, inside: Range, outside: Range)
    requires !OutsideBudget(Price(o), inside) && OutsideBudget(Price(o), outside)
    ensures RawScore(o, ps, outside) == RawScore(o, ps, inside) - 15
  {
  }

  /** The budget test is inclusive at both ends: a price of exactly 800 is
      inside both the "500-800" and the "800-1200" brackets. */
  lemma {:induction false} BudgetBoundsInclusive()
    ensures !OutsideBudget(Some(800), BudgetRanges["500-800"])
    ensures !OutsideBudget(Some(800), BudgetRanges["800-1200"])
    ensures OutsideBudget(Some(801), BudgetRanges["500-800"])
    ensures OutsideBudget(Some(799), BudgetRanges["800-1200"])
  {
  }

  /** Selecting more priorities never lowers an option's score: every bonus is non-negative. */
  lemma {:induction false} MorePrioritiesNeverLower(o: UpgradeOption, ps: seq<string>, qs: seq<string>, range: Range)
    requires forall p :: p in ps ==> p in qs
    ensures Rescore(o, ps, range).score <= Rescore(o, qs, range).score
  {
  }

  const CameraTip := "Consider the Ultra models for the best camera experience"
  const TradeInTip := "Look for trade-in deals to reduce upgrade costs"
  const PromotionsTip := "Check for current promotions and discounts"
  const GeneralTips := [
    "Wait for seasonal sales like Black Friday for better deals",
    "Consider certified pre-owned devices for savings",
    "Compare carrier deals vs unlocked pricing"
  ]

  /** `generateTips`, cut to the first four. The promotions tip tests the
      budget for "immediate", which is a timeframe value, not a budget key. */
  function Tips(priorities: seq<string>, budget: string): (r: seq<string>)
    ensures 3 <= |r| <= 4
    ensures PromotionsTip in r <==> budget == "immediate"
    ensures CameraTip in r <==> "camera" in priorities
    ensures "camera" in priorities ==> r[0] == CameraTip
    ensures TradeInTip in r <==> "price" in priorities
  {
    var camera := if "camera" in priorities then [CameraTip] else [];
    var price := if "price" in priorities then [TradeInTip] else [];
    var promotions := if budget == "immediate" then [PromotionsTip] else [];
    var all := camera + price + promotions + GeneralTips;
    var r := if |all| <= 4 then all else all[..4];
    assert budget == "immediate" ==> r[|camera| + |price|] == PromotionsTip;
    assert "camera" in priorities ==> r[0] == CameraTip;
    assert forall t :: t in r ==> t in all;
    assert PromotionsTip !in camera + price + GeneralTips;
    assert CameraTip !in price + promotions + GeneralTips;
    assert "price" in priorities ==> r[|camera|] == TradeInTip;
    assert TradeInTip !in camera + promotions + GeneralTips;
    r
  }

  /** No valid budget bracket ever gets the promotions tip. */
  lemma {:induction false} NoPromotionsForBudgetKeys(priorities: seq<string>, budget: string)
    requires budget in BudgetRanges
    ensures PromotionsTip !in Tips(priorities, budget)
  {
  }

  /** `priorities.map(p => p.charAt(0).toUpperCase() + p.slice(1))`. */
  function PriorityLabels(ps: seq<string>): (r: seq<string>)
    ensures |r| == |ps|
    ensures forall i :: 0 <= i < |ps| ==> r[i] == Text.UpperFirst(ps[i])
  {
    if ps == [] then [] else [Text.UpperFirst(ps[0])] + PriorityLabels(ps[1..])
  }

  /** `budget.replace('-', ' - $').replace('under', 'Under $').replace('over', 'Over $')`. */
  function BudgetLabel(budget: string): string {
    Text.ReplaceFirst(Text.ReplaceFirst(Text.ReplaceFirst(budget, "-", " - $"), "under", "Under $"), "over", "Over $")
  }

  /** `timeframe.replace('-', ' ')`. */
  function TimeframeLabel(timeframe: string): string {
    Text.ReplaceFirst(timeframe, "-", " ")
  }

  /** The three replacements run in sequence and each replaces only its
      first match, so the bracket labels keep the dash they were meant to
      lose: "under-500" reads "Under $ - $500". */
  lemma {:induction false} BudgetLabelUnder(n: string)
    requires Text.AllDigits(n)
    ensures BudgetLabel("under-" + n) == "Under $ - $" + n
  {
    Text.AllDigitsNoChar(n, '-');
    Text.AllDigitsNoChar(n, 'o');
    assert "under-" + n == "under" + "-" + n;
    Text.ReplaceFirstSplit("under", "-", n, " - $");
    assert "under" + " - $" + n == [] + "under" + (" - $" + n);
    Text.ReplaceFirstSplit([], "under", " - $" + n, "Under $");
    assert [] + "Under $" + (" - $" + n) == "Under $ - $" + n;
    assert 'o' !in "Under $ - $";
    Text.ReplaceFirstAbsent("Under $ - $" + n, "over", "Over $");
  }

  /** "over-1200" reads "Over $ - $1200". */
  lemma {:induction false} BudgetLabelOver(n: string)
    requires Text.AllDigits(n)
    ensures BudgetLabel("over-" + n) == "Over $ - $" + n
  {
    Text.AllDigitsNoChar(n, '-');
    Text.AllDigitsNoChar(n, 'u');
    assert "over-" + n == "over" + "-" + n;
    Text.ReplaceFirstSplit("over", "-", n, " - $");
    assert 'u' !in "over - $";
    Text.ReplaceFirstAbsent("over" + " - $" + n, "under", "Under $");
    assert "over" + " - $" + n == [] + "over" + (" - $" + n);
    Text.ReplaceFirstSplit([], "over", " - $" + n, "Over $");
    assert [] + "Over $" + (" - $" + n) == "Over $ - $" + n;
  }

  /** "500-800" reads "500 - $800". */
  lemma {:induction false} BudgetLabelBetween(a: string, b: string)
    requires Text.AllDigits(a) && Text.AllDigits(b)
    ensures BudgetLabel(a + "-" + b) == a + " - $" + b
  {
    Text.AllDigitsNoChar(a, '-');
    Text.AllDigitsNoChar(a, 'u');
    Text.AllDigitsNoChar(b, 'u');
    Text.AllDigitsNoChar(a, 'o');
    Text.AllDigitsNoChar(b, 'o');
    Text.ReplaceFirstSplit(a, "-", b, " - $");
    var s := a + " - $" + b;
    assert 'u' !in s && 'o' !in s;
    Text.ReplaceFirstAbsent(s, "under", "Under $");
    Text.ReplaceFirstAbsent(s, "over", "Over $");
  }

  /** A timeframe "3-months" reads "3 months". */
  lemma {:induction false} TimeframeLabelSpaced(a: string, b: string)
    requires '-' !in a
    ensures TimeframeLabel(a + "-" + b) == a + " " + b
  {
    Text.ReplaceFirstSplit(a, "-", b, " ");
  }

  datatype Recommendation = Recommendation(option: UpgradeOption, reason: string)

  /** The advice `getAdvice` resolves with, without its Id and timestamp. */
  datatype Advice = Advice(
    currentModel: string,
    priorities: seq<string>,
    budget: string,
    timeframe: string,
    topRecommendation: Recommendation,
    alternatives: seq<Recommendation>,
    tips: seq<string>)

  function Alternative(o: UpgradeOption): Recommendation {
    Recommendation(o, "Strong alternative with " + Text.Join(o.strengths, ", "))
  }

  function Alternatives(os: seq<UpgradeOption>): (r: seq<Recommendation>)
    ensures |r| == |os|
    ensures forall i :: 0 <= i < |os| ==> r[i].option == os[i]
    ensures forall i :: 0 <= i < |os| ==>
              r[i].reason == "Strong alternative with " + Text.Join(os[i].strengths, ", ")
  {
    if os == [] then [] else [Alternative(os[0])] + Alternatives(os[1..])
  }

  /** `getAdvice`: the best-scoring option and the next three. */
  function GetAdvice(currentModel: string, priorities: seq<string>, budget: string, timeframe: string): (r: Result<Advice>)
    ensures r.Ok? <==> budget in BudgetRanges
    ensures r.Err? ==> r.error == MissingRangeError
    ensures r.Ok? ==> && r.value.currentModel == currentModel
                      && r.value.priorities == PriorityLabels(priorities)
                      && r.value.budget == BudgetLabel(budget)
                      && r.value.timeframe == TimeframeLabel(timeframe)
                      && r.value.tips == Tips(priorities, budget)
                      && r.value.topRecommendation.reason
                         == "Best match for your " + Text.Join(priorities, ", ") + " priorities"
  {
    var scored :- CalculateScores(currentModel, priorities, budget);
    CalculateScoresSpec(currentModel, priorities, budget);
    var top := Recommendation(scored[0], "Best match for your " + Text.Join(priorities, ", ") + " priorities");
    Ok(Advice(currentModel, PriorityLabels(priorities), BudgetLabel(budget), TimeframeLabel(timeframe),
              top, Alternatives(scored[1..4]), Tips(priorities, budget)))
  }

  /** The top recommendation is not the current phone, scores at least as
      high as every scored option, and among the options with that score it
      is the one listed first in the option table. */
  lemma {:induction false} GetAdviceTop(currentModel: string, priorities: seq<string>, budget: string, timeframe: string)
    requires budget in BudgetRanges
    ensures var top := GetAdvice(currentModel, priorities, budget, timeframe).value.topRecommendation.option;
      var rescored := RescoreAll(Candidates(currentModel), priorities, BudgetRanges[budget]);
      && top.model != currentModel
      && top in CalculateScores(currentModel, priorities, budget).value
      && (forall o :: o in CalculateScores(currentModel, priorities, budget).value ==> o.score <= top.score)
      && Seqs.FindIndex(rescored, Seqs.KeyIs(Score, top.score)).Some?
      && rescored[Seqs.FindIndex(rescored, Seqs.KeyIs(Score, top.score)).value] == top
  {
    CalculateScoresSpec(currentModel, priorities, budget);
    var scored := CalculateScores(currentModel, priorities, budget).value;
    var rescored := RescoreAll(Candidates(currentModel), priorities, BudgetRanges[budget]);
    assert scored == Seqs.SortDesc(rescored, Score);
    assert GetAdvice(currentModel, priorities, budget, timeframe).value.topRecommendation.option == scored[0];
    Seqs.HeadIsMax(scored, Score);
    Seqs.SortDescHead(rescored, Score);
  }

  /** Exactly three alternatives: the second, third and fourth scored
      options in ranking order, none of them the current phone. */
  lemma {:induction false} GetAdviceAlternatives(currentModel: string, priorities: seq<string>, budget: string, timeframe: string)
    requires budget in BudgetRanges
    ensures var alts := GetAdvice(currentModel, priorities, budget, timeframe).value.alternatives;
      var scored := CalculateScores(currentModel, priorities, budget).value;
      && |alts| == 3
      && |scored| >= 4
      && (forall i :: 0 <= i < 3 ==> alts[i].option == scored[i + 1])
      && forall alt :: alt in alts ==> alt.option in scored && alt.option.model != currentModel
  {
    CalculateScoresSpec(currentModel, priorities, budget);
    var scored := CalculateScores(currentModel, priorities, budget).value;
    var alts := GetAdvice(currentModel, priorities, budget, timeframe).value.alternatives;
    assert alts == Alternatives(scored[1..4]);
    AlternativesOf(scored);
  }

  /** The alternatives are the second to fourth options of the ranking, in order. */
  lemma {:induction false} AlternativesOf(scored: seq<UpgradeOption>)
    requires |scored| >= 4
    ensures |Alternatives(scored[1..4])| == 3
    ensures forall i :: 0 <= i < 3 ==> Alternatives(scored[1..4])[i].option == scored[i + 1]
    ensures forall alt :: alt in Alternatives(scored[1..4]) ==> alt.option in scored[1..]
  {
    var next, alts := scored[1..4], Alternatives(scored[1..4]);
    forall alt | alt in alts
      ensures alt.option in scored[1..]
    {
      var k :| 0 <= k < |alts| && alts[k] == alt;
      assert alt.option == next[k];
      assert next[k] == scored[1..][k];
    }
  }

  /** A valid budget never gets the promotions tip. */
  lemma {:induction false} GetAdviceTips(currentModel: string, priorities: seq<string>, budget: string, timeframe: string)
    requires budget in BudgetRanges
    ensures var tips := GetAdvice(currentModel, priorities, budget, timeframe).value.tips;
      && PromotionsTip !in tips
      && (CameraTip in tips <==> "camera" in priorities)
  {
    assert GetAdvice(currentModel, priorities, budget, timeframe).value.tips == Tips(priorities, budget);
    NoPromotionsForBudgetKeys(priorities, budget);
  }
}

=== FILE: upgrade_page.dfy ===
/** The upgrade advisor page (`src/components/pages/UpgradeAdvisor.jsx`):
    its form with the priority toggles, the submit guard and the score badge. */
module UpgradePage {
  import opened Wrappers
  import Seqs
  import Forms
  import Upgrade

  datatype Form = Form(currentModel: string, priorities: seq<string>, budget: string, timeframe: string)

  /** The text fields; the priorities change only through the toggles. */
  datatype Field = CurrentModel | Budget | Timeframe

  function Get(f: Form, field: Field): string {
    match field
    case CurrentModel => f.currentModel
    case Budget => f.budget
    case Timeframe => f.timeframe
  }

  function SetField(f: Form, field: Field, value: string): (g: Form)
    ensures Get(g, field) == value && g.priorities == f.priorities
    ensures forall other :: other != field ==> Get(g, other) == Get(f, other)
  {
    match field
    case CurrentModel => f.(currentModel := value)
    case Budget => f.(budget := value)
    case Timeframe => f.(timeframe := value)
  }

  type State = Forms.Page<Form, Upgrade.Advice>

  const EmptyForm := Form("", [], "", "")
  const MissingFields := "Please fill in all required fields and select at least one priority"
  const Failure := "Failed to generate upgrade advice. Please try again."

  function Reset(): (s: State)
    ensures s.form == EmptyForm && s.result.None? && s.error == ""
  {
    Forms.Blank(EmptyForm)
  }

  function HandleInputChange(s: State, field: Field, value: string): (t: State)
    ensures Get(t.form, field) == value && t.form.priorities == s.form.priorities
    ensures forall other :: other != field ==> Get(t.form, other) == Get(s.form, other)
    ensures t.result == s.result && t.error == ""
  {
    s.(form := SetField(s.form, field, value), error := "")
  }

  /** `handlePriorityToggle`: only the priorities change; the error stays. */
  function TogglePriority(s: State, id: string): (t: State)
    ensures t.form.priorities == Forms.Toggle(s.form.priorities, id)
    ensures forall field :: Get(t.form, field) == Get(s.form, field)
    ensures t.result == s.result && t.error == s.error
  {
    s.(form := s.form.(priorities := Forms.Toggle(s.form.priorities, id)))
  }

  /** Toggling a priority on and off again restores the page. */
  lemma {:induction false} TogglePriorityTwice(s: State, id: string)
    requires id !in s.form.priorities
    ensures TogglePriority(TogglePriority(s, id), id) == s
  {
    Forms.ToggleTwice(s.form.priorities, id);
  }

  /** The priorities that start empty never hold a repetition. */
  lemma {:induction false} TogglePriorityNoDup(s: State, id: string)
    requires Seqs.NoDup(s.form.priorities)
    ensures Seqs.NoDup(TogglePriority(s, id).form.priorities)
  {
    Forms.ToggleNoDup(s.form.priorities, id);
  }

  function Guard(f: Form): (m: Option<string>)
    ensures m.None? <==> (forall field :: Get(f, field) != "") && |f.priorities| > 0
    ensures m.Some? ==> m.value == MissingFields
  {
    if f.currentModel == "" || |f.priorities| == 0 || f.budget == "" || f.timeframe == "" then
      assert Get(f, CurrentModel) == "" || |f.priorities| == 0 || Get(f, Budget) == "" || Get(f, Timeframe) == "";
      Some(MissingFields)
    else None
  }

  function Advise(f: Form): Result<Upgrade.Advice> {
    Upgrade.GetAdvice(f.currentModel, f.priorities, f.budget, f.timeframe)
  }

  /** `handleSubmit`. A budget outside the bracket table makes the advice
      throw, which the page reports as a failure. */
  function Submit(s: State): (t: State)
    ensures t.form == s.form
    ensures Guard(s.form).Some? ==> t.result == s.result && t.error == MissingFields
    ensures Guard(s.form).None? && s.form.budget in Upgrade.BudgetRanges ==>
              t.result == Some(Advise(s.form).value) && t.error == ""
    ensures Guard(s.form).None? && s.form.budget !in Upgrade.BudgetRanges ==>
              t.result == s.result && t.error == Failure
  {
    match Guard(s.form)
    case Some(m) => Forms.Reject(s, m)
    case None => Forms.Complete(s, Advise(s.form), Failure)
  }

  datatype Badge = Success | Info | Warning | Default

  /** `getScoreColor`. */
  function ScoreColor(score: int): Badge {
    if score >= 90 then Success
    else if score >= 70 then Info
    else if score >= 50 then Warning
    else Default
  }

  function Rank(b: Badge): nat {
    match b
    case Default => 0
    case Warning => 1
    case Info => 2
    case Success => 3
  }

  /** A higher score never gets a lower badge, and the bands start at 90, 70 and 50. */
  lemma {:induction false} ScoreColorMonotone(a: int, b: int)
    requires a <= b
    ensures Rank(ScoreColor(a)) <= Rank(ScoreColor(b))
    ensures ScoreColor(b) == Success <==> b >= 90
    ensures ScoreColor(b) == Default <==> b < 50
  {
  }
}

=== FILE: wrappers.dfy ===
/** Failure-carrying values shared by every service of the model.
    `Option` stands for a JavaScript value that may be missing (an absent table
    key, `NaN` from `parseInt`, a failed `find`); `Result` stands for a promise
    that resolves with a value or rejects with an error message. */
module Wrappers {

  datatype Option<+T> = None | Some(value: T) {

    /** Returns the value, or `default` when there is none: the `x || default` idiom. */
    function GetOr(default: T): T {
      match this
      case Some(v) => v
      case None => default
    }
  }

  datatype Result<+R> = Ok(value: R) | Err(error: string) {

    predicate IsFailure() {
      Err?
    }

    function PropagateFailure<U>(): Result<U>
      requires Err?
    {
      Err(error)
    }

    function Extract(): R
      requires Ok?
    {
      value
    }
  }
}
